=== FILE: README.md ===
# canvaschess board widget — a Dafny model

This project models the core of `CHESS.Board` in `canvaschess/board.js`: the
canvas chessboard widget that turns mouse and touch input into moves, keeps
the canonical position, and notifies subscribers.

The model covers these parts:

- **Geometry** (`geometry.dfy`). Pixel-to-cell arithmetic, with `parseInt`
  truncating toward zero. Also the black-at-the-bottom orientation flip,
  square names and their inverse `getArrayPosition`, and the 8×8 grid of
  piece codes.
- **Event bus** (`eventbus.dfy`). The per-channel subscriber lists: the
  public `subscribe`, and `publish` (the publish mode of
  `visitSubscribers`). Also the public `unsubscribe` (the splice-in-a-forward-walk
  mode of `visitSubscribers`), written both as a function and as the loop
  the widget runs, with a proof that the two agree.
- **Layout** (`layout.dfy`). Canvas sizing (`controller.resize`), the 3×3
  region a drag step restores from the snapshot, and the rank and file
  labels drawn along the board's edges.
- **Position** (`position.dfy`). The `model` object and the `model.move`
  transaction. The rules engine (`CHESS.engine.moveTemp`, `isMate`,
  `isStalemate`, `getFEN`) is a parameter: a record of functions with no
  further assumptions.
- **Board** (`board.dfy`). The controller's view state and the drag state
  machine: press (`myDown`), move (`myMove`), release (`myUp`) and cancel
  (`myCancel`). Also the public `flip`, `setActive`, `getActiveColor`,
  `positionClear`, `positionStart` and `resize`.

Every handler is a pure transition. It returns the new board and the events
it caused, in order:

- `Publish` records the channel, the descriptor, the receiving callbacks and
  the position they can observe.
- `Committed` is the write of the canonical position.
- `Render(refresh)` is `takeSnapshot`.
- `Restore`, `Hover` and `DrawPiece` are the drawing a drag step does on the
  live canvas.

Ordering claims are stated on these traces. For example, a move's
descriptor is published before the move is committed, and a rejected move
publishes nothing.

Pointer positions are integer offsets from the canvas's top-left corner. A
press lands inside the canvas, which has 8 columns and 8 rows, or 10 rows in
setup mode. A move may be anywhere, since a touch that leaves the canvas
keeps reporting to it. So may a release, apart from the few cases listed
under "Left out" (`Board.Releasable`).

## Model

| member | source | states |
|---|---|---|
| Geometry.TruncDiv | canvaschess/board.js:125-126 | `parseInt(p / size)` truncates toward zero: for a non-negative offset the quotient is the square containing it; for a negative offset the quotient is at most 0 and rounds toward 0, not down |
| Geometry.CellIndexInRange | canvaschess/board.js:125-126 | An offset inside `n` squares yields an index in `0..n-1` |
| Geometry.BelowBoardRow | canvaschess/board.js:125-126 | An offset at or past the board's eight squares gives a screen row of 8 or more |
| Geometry.OrientInvolution | canvaschess/board.js:128-132 | The black-at-the-bottom flip `7 - k` is its own inverse and keeps indices on the board |
| Geometry.ScreenToCell | canvaschess/board.js:125-132 | The source's mapping: the truncated screen indices, both mirrored to `7 - k` with black at the bottom; the cell is on the board exactly when both screen indices are in `0..7` |
| Geometry.FlippedPieceBoxPressOffGrid | canvaschess/board.js:125-141 | As written, with black at the bottom, a press on the first piece-box row maps to row -1, which is neither a board row nor a piece-box row |
| Geometry.ScreenToSlot | canvaschess/board.js:125-141 | Corrected pointer mapping: above the piece box it is the source's mapping; from the piece box down, in either orientation, it is the cell whose drawn square contains the pointer, on row 8 or below |
| Geometry.ScreenToSlotInCanvas | canvaschess/board.js:727-738 | Every in-canvas pointer maps to a cell of the canvas in either orientation: a board cell exactly when above the board, otherwise the piece-box cell drawn under the pointer |
| Geometry.CharAt | canvaschess/board.js:143-144 | `substr(k, 1)` is empty exactly past the end; otherwise it is the k-th character |
| Geometry.ArrayPosition | canvaschess/board.js:359-360 | Square-name lookup: a result is a board cell whose name is the input; no result means no board cell has that name |
| Geometry.NameRoundTrip | canvaschess/board.js:346-360 | Naming a cell the way `myUp` does and looking the name up gives the cell back |
| Geometry.SquareNameInjective | canvaschess/board.js:362 | Two board cells have equal names exactly when they are the same cell, so `sq1 !== sq2` compares cells |
| Geometry.Decimal | canvaschess/board.js:356 | The digits `+` writes for a natural number: decimal digits only, no leading zero, one digit exactly below 10, and reading back (`DigitsValue`) as the number |
| Geometry.CellName | canvaschess/board.js:346-357 | A drag end point is named `piecebox` exactly from row 8 on, whatever its column; a board cell's name looks up to the cell itself; a cell above the board gets its file letter followed by the digits of `8 - row`, a rank past 8 and a name of no square |
| Geometry.CellNameTwoAbove | canvaschess/board.js:356 | A release two rows above the board on file e is named `e10` |
| Geometry.Put | canvaschess/board.js:364-365 | Writing one grid cell sets that cell and leaves every other cell and the grid's shape as they were |
| EventBus.Channel | canvaschess/board.js:401 | An omitted or empty channel name means `any`, and any other name is used as given |
| EventBus.FreshRegistry | canvaschess/board.js:20-22 | A new board's registry delivers to nobody on any channel; after a first subscription its channel holds exactly that callback, and only `any` and that channel exist |
| EventBus.Subscribe | canvaschess/board.js:974-980 | The callback is appended to its channel's list, which is created if absent; every other channel is unchanged |
| EventBus.Publish | canvaschess/board.js:389-417 | Every callback on the channel is called once with the payload, in subscription order; a channel with no list calls nothing |
| EventBus.Unsubscribe | canvaschess/board.js:988-990 | Removal touches only the named channel and never removes another callback; it removes every copy exactly when no two copies are adjacent |
| EventBus.UnsubscribeLoop | canvaschess/board.js:400-417 | The source's forward walk, which splices in place up to the list's original length, computes exactly `Unsubscribe` |
| EventBus.SpliceOutKeepsOthers | canvaschess/board.js:408-415 | The splice walk (`SpliceOut`) keeps every other callback, in order |
| EventBus.SpliceOutRemovesAllIff | canvaschess/board.js:408-415 | The splice walk (`SpliceOut`) leaves a copy of the callback exactly when two copies were adjacent |
| EventBus.SpliceOutExactIff | canvaschess/board.js:408-415 | The splice walk (`SpliceOut`) agrees with the reference "remove every copy" exactly when no two copies are adjacent |
| EventBus.SpliceOutLeavesSecondCopy | canvaschess/board.js:408-415 | Concrete cases of the splice walk (`SpliceOut`): `[f, f]` leaves `[f]`, and `[g, f, f, g]` leaves `[g, f, g]` |
| EventBus.SpliceOutTrailing | canvaschess/board.js:408-415 | The splice walk (`SpliceOut`) removes a single trailing copy and changes nothing else |
| EventBus.SubscribeThenUnsubscribe | canvaschess/board.js:974-990 | Subscribing a callback new to an existing channel and then unsubscribing it restores the registry |
| Layout.ResizeAsWritten | canvaschess/board.js:425-447 | As written, the canvas is 8 × rows whole squares; in play mode it fits the container and cannot grow by one pixel per square |
| Layout.ResizeAsWrittenOverflowsInSetup | canvaschess/board.js:438-446 | As written, an 80×80 container in setup mode gets a 100-pixel-tall canvas |
| Layout.Resize | canvaschess/board.js:425-447 | Corrected sizing: 8 × rows whole squares, fitting the used height and width in both modes, with no larger square fitting; the requested size is replaced by the container's when either value is 0 |
| Layout.ResizeAgreesOutsideSetupPortrait | canvaschess/board.js:438-446 | In play mode, or when the used height is below the used width, the corrected sizing equals the written one |
| Layout.DragOrigin | canvaschess/board.js:285-286 | The dragged piece is drawn centred on the pointer, within half a pixel after truncation |
| Layout.ClipAxis | canvaschess/board.js:193-206 | Along each axis the restore region lies on the board and covers the on-board part of the three squares around the pointer |
| Layout.RestoreClip | canvaschess/board.js:186-209 | The snapshot is restored exactly when the previous pointer was on the board; the region lies on the board, has positive size, and covers the 3×3 block around that pointer |
| Layout.RestoreCoversOverlay | canvaschess/board.js:186-295 | The region restored around a pointer position covers the hover square, the resident piece and the dragged piece drawn at that position |
| Layout.SquareLabels | canvaschess/board.js:608-632 | A rank label is drawn exactly on the left column and a file label exactly on the bottom row when labels are shown; each is the rank or file of the square's name in the board's orientation |
| PositionModel.ActiveColor | canvaschess/board.js:468 | `w` exactly when white is to move and `b` exactly when black is |
| PositionModel.Move | canvaschess/board.js:455-529 | On reject the position is untouched, nothing is published and the board is redrawn. On accept the events are exactly the publication, one commit and one redraw, in that order. The one descriptor is published on `move_before`, to that channel's subscribers, while they still see the old position. The commit takes the grid and flags from the engine, adds one move, and keeps the last move unless the engine set one. The descriptor has the pre-move FEN and side to move, a promotion flag (pawn to the last rank), mate, and stalemate only when not mate |
| PositionModel.SubscribersSeeDescribedPosition | canvaschess/board.js:467-508 | Every publication's FEN is the FEN of the position its subscribers observe, which is the pre-move one |
| PositionModel.MoveKeepsGrid | canvaschess/board.js:508 | An engine that preserves 8×8 grids keeps the board's grid 8×8 across a move |
| Board.PointedCell | canvaschess/board.js:125-143 | The pointer selects a board cell exactly when above the board, otherwise a piece-box cell, always within the canvas's rows |
| Board.PointerDown | canvaschess/board.js:105-159 | On an inactive board nothing changes. Otherwise the pointer is recorded. A drag opens on the pointed cell with its piece, and the snapshot is redrawn without refreshing the canvas, exactly when the piece may be lifted (`MayLift`, lines 144-157: a non-empty cell, and in play mode not of the colour not to move). The position and subscribers never change |
| Board.PlayLiftsOnlyActiveSide | canvaschess/board.js:144-148 | In play mode a lifted piece never carries the colour of the side not to move |
| Board.PieceBoxPressLiftsDrawnPiece | canvaschess/board.js:134-143 | In setup mode, in either orientation, a press on a piece-box cell starts a drag exactly when that cell holds a piece. The drag carries that piece from `piecebox` |
| Board.PointerMove | canvaschess/board.js:166-297 | Without a drag nothing happens. With one, only the pointer offset changes. When the old pointer was on the board, the first event restores `RestoreClip` around it, and no other event is a restore. Off the board nothing else is drawn. On the board everything after the restore is the drag frame |
| Board.DragFrame | canvaschess/board.js:229-295 | A drag step over the board draws, each at most once and in this order: the hover square `CellRect(i, j)`, exactly when hover highlighting is on; the piece read at the flipped cell under the pointer onto that square, exactly when the cell holds one and is not the drag source; and last the dragged piece at `DragOrigin`, centred on the pointer |
| Board.FrameInsideNextRestore | canvaschess/board.js:186-295 | Everything a drag frame draws lies inside the block the next move step restores |
| Board.OverlayErasedByNextMove | canvaschess/board.js:186-295 | Every hover square and piece one move step draws is covered, as far as it is on the board, by the restore that opens the next step |
| Board.SetupDrop | canvaschess/board.js:359-374 | In setup mode, board to board moves the piece and empties the source. Piece box to board places a copy. Board to piece box empties the source. A drop where it started changes nothing. Every other cell is kept |
| Board.PointerUp | canvaschess/board.js:304-381 | Without an active board and a drag nothing happens. Otherwise the drag is ended and both end points are named, the release from wherever it lands. Setup mode drops the piece into the grid and play mode runs `model.move`. The final event is a refreshing redraw. A grid-preserving engine keeps the board well formed |
| Board.ReleaseCell | canvaschess/board.js:318-333 | In play mode a release is mapped as the source maps it, both indices flipped with black at the bottom. In setup mode the same holds above the piece box, and from the piece box down the cell is a piece-box row |
| Board.ReleaseBelowBoardIsPieceBox | canvaschess/board.js:353-354 | With white at the bottom, a release anywhere below the board is followed and named `piecebox`, whatever its column, in either mode |
| Board.FlippedPlayReleaseUnderBoard | canvaschess/board.js:331-357 | In play mode with black at the bottom, a release just under the board keeps the flipped row: at (5, 85) with 10-pixel squares the name is `h9` |
| Board.OffBoardReleaseNamesNoSquare | canvaschess/board.js:346-357 | A play-mode release off the board within the files hands `model.move` a name that is no square |
| Board.PlayDragCommitsEngineMove | canvaschess/board.js:304-381 | A press then release in play mode commits exactly the engine's verdict on the two squares. A rejected move leaves the position unchanged and publishes nothing. An accepted one counts one more move and publishes once, before the commit, while subscribers see the old position |
| Board.SetupIgnoresEngine | canvaschess/board.js:362-377 | A setup-mode release does not depend on the rules engine and publishes nothing |
| Board.PieceBoxRoundTrip | canvaschess/board.js:362-374 | A piece dragged from the piece box onto a square and back leaves that square empty and every other square as it was |
| Board.PointerCancel | canvaschess/board.js:91-98 | The drag session ends and the board is redrawn; the position and subscribers are unchanged. It applies to any square size, including 0 |
| Board.CancelEndsSession | canvaschess/board.js:91-98 | After a cancel, moving the pointer draws nothing, and releasing it neither changes the board nor publishes |
| Board.Flip | canvaschess/board.js:791-794 | Only the orientation changes, and the board is redrawn |
| Board.FlipInvolution | canvaschess/board.js:791-794 | Flipping twice restores the board. In play mode, after one flip every pointer position in the canvas selects the mirror cell `(7 - row, 7 - col)` |
| Board.SetActive | canvaschess/board.js:927-929 | Only the interaction flag changes, and it takes the given value |
| Board.InactiveBoardIgnoresPointer | canvaschess/board.js:316 | On a board set inactive, presses and releases change nothing and cause nothing |
| Board.GetActiveColor | canvaschess/board.js:801-803 | `w` exactly when white is to move, `b` exactly when black is |
| Board.PositionClear | canvaschess/board.js:862-882 | Every square is empty, the last move is the empty record `{}`, white is to move, no en-passant target, all castling rights, zero moves, and a redraw. The interaction flag, mode, piece box and view are kept |
| Board.ClearedBoardLiftsNothing | canvaschess/board.js:862-882 | After a clear no press on the board starts a drag |
| Board.PositionStart | canvaschess/board.js:887-909 | The grid is the initial layout, the last move is the empty record `{}`, white is to move, no en-passant target, all castling rights, zero moves, and a redraw. The board is opened for interaction; mode, piece box and view are kept |
| Board.StartGridLayout | canvaschess/board.js:888-897 | In the initial layout black is on rows 0–1 and white on rows 6–7, pawns on rows 1 and 6, and nothing in between |
| Board.StartPositionLiftsWhite | canvaschess/board.js:887-909 | After a start in play mode, a press starts a drag exactly on rows 6–7 of the grid (the white pieces), in either orientation |
| Board.Resize | canvaschess/board.js:917-920 | The square size comes from the corrected sizing (see Findings), and the resulting canvas fits tightly in the used height and width. Only the square size changes in the view; the position and subscribers are untouched, and the board is redrawn. The result supports the pointer handlers exactly when the size is positive |

## Left out

- Event decoding is left out: mouse versus touch, `getBoundingClientRect` and the `return` on an event with neither kind of coordinates. Pointer offsets are parameters.
- Cursor styles, `preventDefault`, images and their loading, colours, fonts, and all other drawing besides the events listed above are left out, because they are presentation only.
- `takeSnapshot` is an event, `Render(refresh)`. The snapshot's contents (pieces, last-move highlight, the lifted piece's cleared square) are not modelled.
- The rules engine is not part of this model. `moveTemp`, `isMate`, `isStalemate` and `getFEN` are parameters. `getArrayPosition` is modelled as the inverse of square naming, returning a cell rather than the engine's two-character string. `getLongNotation` (used by the public `move`) is not modelled.
- `setPosition`, `setMode`, `setLastMove`, `display`, `getFEN`, `getCanvas`, `isMate`, `isStalemate`, `move(san)`, `buildHtml` and `init` are left out. They are outside the modelled core, or they forward to the rules engine or the DOM.
- `piece_not_lifted` and `draw_height` are left out. They are written but never read: the only reader of the first is commented out, and the second is never used.
- Board.Pointable: presses outside the canvas are excluded. `mousedown` and `touchstart` are bound on the canvas (lines 999 and 1002), so a press starts inside it.
- Board.Releasable: a release is modelled wherever it lands, except in two cases. First, a release left or right of the files on a row before 8 (on the board or above it) is excluded. There `alpha_conversion[j]` is `undefined`, and `undefined + (8 - i)` is `NaN`, so the engine is handed a number, not a string. From row 8 on the name is `piecebox` whatever the column, and those releases are modelled. Second, a setup-mode release that names a rank past 8 is excluded; this is a release above the board with white at the bottom. Its name (such as `e9`) reaches the grid write through the engine's `getArrayPosition`, which is not part of this model.
- Board.Resize: uses the corrected sizing of the first finding, not the as-written `Layout.ResizeAsWritten`. In setup mode with the used height not below the used width, the widget as written gives a canvas taller than its container.
- Throwing subscribers are not modelled. A `move_before` callback that throws stops the remaining deliveries (line 410). It also stops `model.move` before the commit (lines 505-516) and `myUp` before its redraw (line 379).
- The registry is a plain object (lines 20-22), so a channel named after an `Object.prototype` member already has a value. For `constructor`, `subscribe` (line 979) and `publish` (line 410) throw. The model's registry is a map that starts with only `any`.
- Board.PointerUp: the `Valid` result is promised only for an engine that keeps grids 8×8 (`PositionModel.Sound`), since the engine is otherwise unconstrained.
- Board.ClearedBoardLiftsNothing: stated for presses on the board only. A clear leaves the piece box as it is.
- EventBus.Publish: callbacks are recorded as deliveries, not run. A callback that re-enters the board (subscribing, unsubscribing, moving) during publication is not modelled.
- Board.PointerDown, and Board.PointerUp in setup mode, use the corrected pointer mapping (see Findings). The as-written mapping throws on a piece-box press with black at the bottom in setup mode, and that failure is not modelled. Play mode has no piece box, and there the release is mapped as written.
- Board.Valid: the pointer handlers are modelled only for a positive square size, because they divide offsets by it. A resize into a container too small for one pixel per square gives size 0; `Resize`, `PointerCancel`, `PositionClear`, `PositionStart`, `Flip` and `SetActive` still apply then, since they ask only for `Board.Shaped`.

## Findings

| source | as written | input that shows it | evidently intended | confidence | as-written member | corrected member |
|---|---|---|---|---|---|---|
| canvaschess/board.js:438-446 | In setup mode, when the height is not smaller than the width, the square size is `width / 8`, but the canvas is 10 squares tall | An 80×80 container in setup mode: square 10, canvas 80 wide and 100 tall | The largest square for which 8 columns and 10 rows fit: `min(height / rows, width / 8)` | high; not executed | Layout.ResizeAsWritten, Layout.ResizeAsWrittenOverflowsInSetup | Layout.Resize, Layout.ResizeAgreesOutsideSetupPortrait |
| canvaschess/board.js:125-141 | With black at the bottom the row index is flipped before the piece-box test, so piece-box rows 8 and 9 become -1 and -2. `position_array[-1][j]` then throws in `myDown`, and `myUp` names the release point `h9` rather than `piecebox` | Setup mode, black at the bottom, a press at offset (0, 8 × square size) | The piece box is drawn unflipped under the board (lines 727-738), so its rows should be read unflipped | high; not executed | Geometry.ScreenToCell, Geometry.FlippedPieceBoxPressOffGrid | Geometry.ScreenToSlot, Board.PieceBoxPressLiftsDrawnPiece |

=== FILE: board.dfy ===
/** The board widget's controller and public operations, as pure transitions
    over a board record: the canonical position, the controller's view state
    and the subscriber registry. Each transition returns the new board and
    the events it produced, in order. */
module Board {
  import opened Wrappers
  import opened Geometry
  import opened EventBus
  import opened PositionModel
  import Layout

  /** The view fields the controller reads and writes: square size,
      orientation, the hover-highlight option, the drag session (`dragok`,
      `drag_piece`, `drag_clear_i/j`) and the last pointer offset. */
  datatype View = View(
    squareSize: int,
    whiteDown: bool,
    highlightHover: bool,
    dragging: bool,
    dragPiece: string,
    dragFrom: Cell,
    left: int,
    top: int)

  datatype Board = Board(model: Position, view: View, subscribers: Registry)

  datatype Step = Step(board: Board, trace: seq<Event>)

  /** Grid and piece box have their shapes, and a drag session holds a
      piece taken from a cell the mode can address. */
  predicate Shaped(b: Board)
  {
    && IsGrid(b.model.grid, 8)
    && IsGrid(b.model.pieceBox, 2)
    && (b.view.dragging ==>
          && b.view.dragPiece != ""
          && 0 <= b.view.dragFrom.row < Rows(b.model.mode)
          && 0 <= b.view.dragFrom.col < 8)
  }

  /** A shaped board whose squares have a size, as the pointer handlers,
      which divide offsets by it, need. */
  predicate Valid(b: Board)
  {
    Shaped(b) && b.view.squareSize > 0
  }

  /** A press the canvas delivers: inside the canvas. */
  predicate Pointable(b: Board, left: int, top: int)
  {
    var s := b.view.squareSize;
    0 <= left < 8 * s && 0 <= top < Rows(b.model.mode) * s
  }

  /** The cell under the pointer: a board cell with the orientation applied,
      or, below the board, the piece-box cell drawn there (see
      `Geometry.ScreenToSlot`). */
  function PointedCell(b: Board, left: int, top: int): (c: Cell)
    requires Valid(b) && Pointable(b, left, top)
    ensures 0 <= c.row < Rows(b.model.mode) && 0 <= c.col < 8
    ensures c.row < 8 <==> top < 8 * b.view.squareSize
    ensures c.row < 8 ==> OnBoard(c)
  {
    ScreenToSlotInCanvas(b.view.whiteDown, left, top, b.view.squareSize, Rows(b.model.mode));
    ScreenToSlot(b.view.whiteDown, left, top, b.view.squareSize)
  }

  /** The cell a release at (`left`, `top`) names, anywhere on the page: a
      release (touch end) is delivered to the canvas even when the finger
      lifts outside it. Off the board the row may be negative or past the
      piece box, and the column outside the files. */
  function ReleaseCell(b: Board, left: int, top: int): (c: Cell)
    requires Valid(b)
    ensures b.model.mode == Play ==> c == ScreenToCell(b.view.whiteDown, left, top, b.view.squareSize)
    ensures b.model.mode == Setup && TruncDiv(top, b.view.squareSize) < 8 ==>
      c == ScreenToCell(b.view.whiteDown, left, top, b.view.squareSize)
    ensures b.model.mode == Setup && 8 * b.view.squareSize <= top ==> 8 <= c.row
  {
    if b.model.mode == Setup then ScreenToSlot(b.view.whiteDown, left, top, b.view.squareSize)
    else ScreenToCell(b.view.whiteDown, left, top, b.view.squareSize)
  }

  /** A release the model follows. From row 8 on it is named `piecebox`
      whatever its column. Above that its column must name a file
      (otherwise the widget's end-point name is the number `NaN`), and in
      setup mode its row must not be above the board (otherwise the grid
      write goes through the engine's lookup of a name that is not a square). */
  predicate Releasable(b: Board, left: int, top: int)
    requires Valid(b)
  {
    var c := ReleaseCell(b, left, top);
    (8 <= c.row || 0 <= c.col < 8) && (b.model.mode == Play || 0 <= c.row)
  }

  /** Contents of a board cell or, from row 8 on, of a piece-box cell. */
  function PieceAt(b: Board, c: Cell): string
    requires Valid(b) && 0 <= c.row < Rows(b.model.mode) && 0 <= c.col < 8
  {
    if c.row < 8 then At(b.model.grid, c) else b.model.pieceBox[c.row - 8][c.col]
  }

  /** The colour letter of the side not to move. */
  function OpponentLetter(whiteToMove: bool): string
  {
    if whiteToMove then "b" else "w"
  }

  /** A piece the controller lets the user pick up: any non-empty cell in
      setup mode; otherwise one whose colour letter is not the opponent's. */
  predicate MayLift(m: Position, piece: string)
  {
    piece != "" && (m.mode == Setup || ColorLetter(piece) != OpponentLetter(m.whiteToMove))
  }

  /** A press at (`left`, `top`) starts a drag. */
  predicate StartsDrag(b: Board, left: int, top: int)
    requires Valid(b) && Pointable(b, left, top)
  {
    b.model.active && MayLift(b.model, PieceAt(b, PointedCell(b, left, top)))
  }

  /** `myDown`: on an active board, record the pointer and, if the piece
      under it may be lifted, open a drag session on its cell and repaint the
      snapshot without refreshing the canvas. The position never changes. */
  function PointerDown(b: Board, left: int, top: int): (r: Step)
    requires Valid(b) && Pointable(b, left, top)
    ensures Valid(r.board)
    ensures r.board.model == b.model && r.board.subscribers == b.subscribers
    ensures !b.model.active ==> r == Step(b, [])
    ensures b.model.active ==> r.board.view.left == left && r.board.view.top == top
    ensures r.board.view.squareSize == b.view.squareSize && r.board.view.whiteDown == b.view.whiteDown
    ensures r.board.view.highlightHover == b.view.highlightHover
    ensures StartsDrag(b, left, top) ==>
      && r.board.view.dragging
      && r.board.view.dragFrom == PointedCell(b, left, top)
      && r.board.view.dragPiece == PieceAt(b, PointedCell(b, left, top))
      && r.trace == [Render(false)]
    ensures !StartsDrag(b, left, top) ==>
      && r.board.view.dragging == b.view.dragging
      && r.board.view.dragFrom == b.view.dragFrom
      && r.board.view.dragPiece == b.view.dragPiece
      && r.trace == []
  {
    if !b.model.active then Step(b, [])
    else
      var v := b.view.(left := left, top := top);
      var c := PointedCell(b, left, top);
      var piece := PieceAt(b, c);
      if b.model.mode != Setup && ColorLetter(piece) == OpponentLetter(b.model.whiteToMove) then
        Step(b.(view := v), [])
      else if piece != "" then
        Step(b.(view := v.(dragging := true, dragFrom := c, dragPiece := piece)), [Render(false)])
      else
        Step(b.(view := v), [])
  }

  /** `myMove` while dragging: restore the 3×3 block around the previous
      pointer position from the snapshot; then, if the new position is on
      the board, draw the hover square, the piece resting under the pointer
      (unless it is the dragged piece's own cell) and the dragged piece
      centred on the pointer. Only the pointer offset is recorded. */
  function PointerMove(b: Board, left: int, top: int): (r: Step)
    requires Valid(b)
    ensures Valid(r.board)
    ensures r.board.model == b.model && r.board.subscribers == b.subscribers
    ensures !b.view.dragging ==> r == Step(b, [])
    ensures b.view.dragging ==> r.board.view == b.view.(left := left, top := top)
    // the restore of the previous step's block comes first, and only then
    ensures var clip := Layout.RestoreClip(b.view.left, b.view.top, b.view.squareSize);
      && (b.view.dragging && clip.Some? ==> |r.trace| > 0 && r.trace[0] == Restore(clip.value))
      && (clip.None? ==> forall e | e in r.trace :: !e.Restore?)
      && (clip.Some? && |r.trace| > 0 ==> forall e | e in r.trace[1..] :: !e.Restore?)
    // off the board nothing is drawn
    ensures !OverBoard(b.view.squareSize, left, top) ==> forall e | e in r.trace :: e.Restore?
    // on the board everything after the restore is the drag frame
    ensures b.view.dragging && OverBoard(b.view.squareSize, left, top) ==>
      var clip := Layout.RestoreClip(b.view.left, b.view.top, b.view.squareSize);
      (if clip.Some? then r.trace[1..] else r.trace) == DragFrame(b, left, top)
  {
    if !b.view.dragging then Step(b, [])
    else
      var s := b.view.squareSize;
      var clip := Layout.RestoreClip(b.view.left, b.view.top, s);
      var restore := if clip.Some? then [Restore(clip.value)] else [];
      var v := b.view.(left := left, top := top);
      if !OverBoard(s, left, top) then
        Step(b.(view := v), restore)
      else
        var f := DragFrame(b, left, top);
        assert clip.Some? ==> (restore + f)[1..] == f;
        assert clip.None? ==> restore + f == f;
        Step(b.(view := v), restore + f)
  }

  /** What a drag step draws over the board square under the pointer: the
      hover highlight if enabled, the piece resting on the cell shown there
      unless it is the drag source, and last the dragged piece centred on the
      pointer. */
  function DragFrame(b: Board, left: int, top: int): (t: seq<Event>)
    requires Valid(b) && OverBoard(b.view.squareSize, left, top)
    ensures var s := b.view.squareSize;
      var square := Layout.CellRect(TruncDiv(top, s), TruncDiv(left, s), s);
      var shown := ScreenToCell(b.view.whiteDown, left, top, s);
      var resident := ImageKey(At(b.model.grid, shown));
      && |t| > 0
      && t[|t| - 1] == DrawPiece(ImageKey(b.view.dragPiece),
                                 Rect(Layout.DragOrigin(left, s), Layout.DragOrigin(top, s), s, s))
      && (forall e | e in t :: !e.Restore?)
      && (forall e | e in t && e.Hover? :: e == Hover(square))
      && (Hover(square) in t <==> b.view.highlightHover)
      && (forall e | e in t[..|t| - 1] && e.DrawPiece? :: e == DrawPiece(resident, square))
      && (DrawPiece(resident, square) in t[..|t| - 1] <==> resident != "" && shown != b.view.dragFrom)
      // one of each, the highlight first, so the pieces are painted over it
      && |t| == 1 + (if b.view.highlightHover then 1 else 0)
                   + (if resident != "" && shown != b.view.dragFrom then 1 else 0)
      && (b.view.highlightHover ==> t[0].Hover?)
  {
    var s := b.view.squareSize;
    var square := Layout.CellRect(TruncDiv(top, s), TruncDiv(left, s), s);
    var hover := if b.view.highlightHover then [Hover(square)] else [];
    var c := ScreenToCell(b.view.whiteDown, left, top, s);
    var resident := ImageKey(At(b.model.grid, c));
    var under := if resident != "" && c != b.view.dragFrom then [DrawPiece(resident, square)] else [];
    var dragged := DrawPiece(ImageKey(b.view.dragPiece),
                             Rect(Layout.DragOrigin(left, s), Layout.DragOrigin(top, s), s, s));
    assert (hover + under + [dragged])[..|hover + under + [dragged]| - 1] == hover + under;
    hover + under + [dragged]
  }

  /** The pointer at (`left`, `top`) is over a board square of the screen. */
  predicate OverBoard(size: int, left: int, top: int)
    requires size > 0
  {
    0 <= TruncDiv(top, size) < 8 && 0 <= TruncDiv(left, size) < 8
  }

  /** The grid after a setup-mode drop of `piece` from `sq1` onto `sq2`,
      looked up through the engine's square-name table. */
  function SetupDrop(g: Grid, sq1: string, sq2: string, piece: string): (h: Grid)
    requires IsGrid(g, 8)
    requires sq1 == PieceBox || ArrayPosition(sq1).Some?
    requires sq2 == PieceBox || ArrayPosition(sq2).Some?
    ensures IsGrid(h, 8)
    // board cell to another board cell: the piece moves
    ensures sq1 != PieceBox && sq2 != PieceBox && sq1 != sq2 ==>
      var from := ArrayPosition(sq1).value; var to := ArrayPosition(sq2).value;
      At(h, to) == piece && At(h, from) == "" && SameExcept(g, h, {from, to})
    // piece box to board: a copy of the piece is placed
    ensures sq1 == PieceBox && sq2 != PieceBox ==>
      var to := ArrayPosition(sq2).value;
      At(h, to) == piece && SameExcept(g, h, {to})
    // board to piece box: the source is cleared
    ensures sq1 != PieceBox && sq2 == PieceBox ==>
      var from := ArrayPosition(sq1).value;
      At(h, from) == "" && SameExcept(g, h, {from})
    // dropped where it came from, or piece box to piece box: nothing changes
    ensures sq1 == sq2 ==> h == g
  {
    if sq1 != sq2 && sq1 != PieceBox && sq2 != PieceBox then
      var from := ArrayPosition(sq1).value;
      var to := ArrayPosition(sq2).value;
      SquareNameInjective(from, to);
      Put(Put(g, to, piece), from, "")
    else if sq1 == PieceBox && sq2 == PieceBox then
      g
    else if sq1 == PieceBox then
      Put(g, ArrayPosition(sq2).value, piece)
    else if sq2 == PieceBox then
      Put(g, ArrayPosition(sq1).value, "")
    else
      g
  }

  /** The view after a drag session ends. */
  function EndDrag(v: View): View
  {
    v.(dragging := false, dragPiece := "", left := 0, top := 0)
  }

  /** `myUp`: on an active board with a drag session, end the session and
      name both end points, the release's wherever it lands; in setup mode
      drop the piece straight into the grid, otherwise run `model.move`;
      then repaint. */
  function PointerUp(b: Board, left: int, top: int, e: Engine): (r: Step)
    requires Valid(b) && Releasable(b, left, top)
    ensures r.board.subscribers == b.subscribers
    ensures !(b.model.active && b.view.dragging) ==> r == Step(b, [])
    ensures b.model.active && b.view.dragging ==>
      && r.board.view == EndDrag(b.view)
      && |r.trace| > 0 && r.trace[|r.trace| - 1] == Render(true)
    ensures b.model.active && b.view.dragging && b.model.mode == Setup ==>
      && r.board.model == b.model.(grid := SetupDrop(b.model.grid, CellName(b.view.dragFrom),
                                                     CellName(ReleaseCell(b, left, top)), b.view.dragPiece))
      && r.trace == [Render(true)]
    ensures b.model.active && b.view.dragging && b.model.mode == Play ==>
      var o := Move(b.model, b.subscribers, e, CellName(b.view.dragFrom), CellName(ReleaseCell(b, left, top)));
      r.board.model == o.position && r.trace == o.trace + [Render(true)]
    ensures Sound(e) ==> Valid(r.board)
  {
    if !(b.model.active && b.view.dragging) then Step(b, [])
    else
      var c := ReleaseCell(b, left, top);
      var v := EndDrag(b.view);
      var sq1 := CellName(b.view.dragFrom);
      var sq2 := CellName(c);
      if b.model.mode == Setup then
        var g := SetupDrop(b.model.grid, sq1, sq2, b.view.dragPiece);
        Step(Board(b.model.(grid := g), v, b.subscribers), [Render(true)])
      else
        var o := Move(b.model, b.subscribers, e, sq1, sq2);
        MoveKeepsGridIfSound(b.model, b.subscribers, e, sq1, sq2);
        Step(Board(o.position, v, b.subscribers), o.trace + [Render(true)])
  }

  /** A play-mode release off the board, above, below or beside the canvas
      within the files, hands the engine a name that is no square. */
  lemma OffBoardReleaseNamesNoSquare(b: Board, left: int, top: int)
    requires Valid(b) && b.model.mode == Play && Releasable(b, left, top)
    requires !OnBoard(ReleaseCell(b, left, top))
    ensures ArrayPosition(CellName(ReleaseCell(b, left, top))).None?
  {
  }

  /** With white at the bottom, a release anywhere below the board is
      followed and named `piecebox`, whatever its column, in either mode. */
  lemma ReleaseBelowBoardIsPieceBox(b: Board, left: int, top: int)
    requires Valid(b) && b.view.whiteDown && 8 * b.view.squareSize <= top
    ensures Releasable(b, left, top) && CellName(ReleaseCell(b, left, top)) == PieceBox
  {
    BelowBoardRow(top, b.view.squareSize);
    assert 8 <= ReleaseCell(b, left, top).row;
  }

  /** In play mode there is no piece box, so with black at the bottom a
      release just under the board keeps the flipped row and names a rank
      past 8: at (5, 85) with 10-pixel squares the name is `h9`. */
  lemma FlippedPlayReleaseUnderBoard(b: Board)
    requires Valid(b) && b.model.mode == Play && !b.view.whiteDown && b.view.squareSize == 10
    ensures Releasable(b, 5, 85) && ReleaseCell(b, 5, 85) == Cell(-1, 7)
    ensures CellName(ReleaseCell(b, 5, 85)) == "h9"
  {
    assert TruncDiv(85, 10) == 8 && TruncDiv(5, 10) == 0;
    assert Decimal(9) == "9";
  }

  lemma MoveKeepsGridIfSound(p: Position, reg: Registry, e: Engine, sq1: string, sq2: string)
    requires IsGrid(p.grid, 8) && ArrayPosition(sq1).Some?
    ensures Sound(e) ==> IsGrid(Move(p, reg, e, sq1, sq2).position.grid, 8)
  {
    if Sound(e) {
      MoveKeepsGrid(p, reg, e, sq1, sq2);
    }
  }

  /** `myCancel`: discard the drag session, whatever its state, and repaint. */
  function PointerCancel(b: Board): (r: Step)
    requires Shaped(b)
    ensures Shaped(r.board)
    ensures r.board.model == b.model && r.board.subscribers == b.subscribers
    ensures !r.board.view.dragging && r.board.view.dragPiece == ""
    ensures r.board.view == EndDrag(b.view)
    ensures r.trace == [Render(true)]
  {
    Step(b.(view := EndDrag(b.view)), [Render(true)])
  }

  /** After a cancel, moving the pointer draws nothing and releasing it
      neither moves a piece nor publishes. */
  lemma CancelEndsSession(b: Board, left: int, top: int, e: Engine)
    requires Valid(b) && Releasable(b, left, top)
    ensures var c := PointerCancel(b).board;
      && Releasable(c, left, top)
      && PointerMove(c, left, top) == Step(c, [])
      && PointerUp(c, left, top, e) == Step(c, [])
  {
  }

  /** `flip`: turn the board round and repaint. */
  function Flip(b: Board): (r: Step)
    ensures r.board.view.whiteDown != b.view.whiteDown
    ensures r.board == b.(view := b.view.(whiteDown := !b.view.whiteDown))
    ensures r.trace == [Render(true)]
  {
    Step(b.(view := b.view.(whiteDown := !b.view.whiteDown)), [Render(true)])
  }

  /** Flipping twice restores the board, and a flipped board maps every
      pointer position to the mirror cell `(7 - row, 7 - col)`. */
  lemma FlipInvolution(b: Board, left: int, top: int)
    requires Valid(b) && b.model.mode == Play && Pointable(b, left, top)
    ensures Flip(Flip(b).board).board == b
    ensures Valid(Flip(b).board) && Pointable(Flip(b).board, left, top)
    ensures var c := PointedCell(b, left, top); var d := PointedCell(Flip(b).board, left, top);
      d == Cell(7 - c.row, 7 - c.col) && OnBoard(d)
  {
  }

  /** `setActive(active)`: open or close the board for interaction. */
  function SetActive(b: Board, active: bool): (r: Board)
    ensures r.model.active == active
    ensures r == b.(model := b.model.(active := active))
  {
    b.(model := b.model.(active := active))
  }

  /** A closed board ignores presses and releases. */
  lemma InactiveBoardIgnoresPointer(b: Board, l1: int, t1: int, l2: int, t2: int, e: Engine)
    requires Valid(b) && Pointable(b, l1, t1) && Releasable(b, l2, t2)
    ensures var c := SetActive(b, false);
      && PointerDown(c, l1, t1) == Step(c, [])
      && PointerUp(c, l2, t2, e) == Step(c, [])
  {
  }

  /** `getActiveColor`: the colour letter of the side to move. */
  function GetActiveColor(b: Board): (c: string)
    ensures c == "w" <==> b.model.whiteToMove
    ensures c == "b" <==> !b.model.whiteToMove
  {
    ActiveColor(b.model.whiteToMove)
  }

  /** In play mode, the side to move may lift its own pieces only: a lifted
      piece never carries the other side's colour letter. */
  lemma PlayLiftsOnlyActiveSide(b: Board, left: int, top: int)
    requires Valid(b) && Pointable(b, left, top) && b.model.mode == Play
    requires StartsDrag(b, left, top)
    ensures var piece := PointerDown(b, left, top).board.view.dragPiece;
      piece != "" && ColorLetter(piece) != (if GetActiveColor(b) == "w" then "b" else "w")
  {
  }

  /** The 8×8 grid with every cell empty. */
  const EmptyGrid: Grid := [
    ["", "", "", "", "", "", "", ""],
    ["", "", "", "", "", "", "", ""],
    ["", "", "", "", "", "", "", ""],
    ["", "", "", "", "", "", "", ""],
    ["", "", "", "", "", "", "", ""],
    ["", "", "", "", "", "", "", ""],
    ["", "", "", "", "", "", "", ""],
    ["", "", "", "", "", "", "", ""]]

  /** The standard initial layout, black on rows 0 and 1. */
  const StartGrid: Grid := [
    ["br", "bn", "bb", "bq", "bk", "bb", "bn", "br"],
    ["bp", "bp", "bp", "bp", "bp", "bp", "bp", "bp"],
    ["", "", "", "", "", "", "", ""],
    ["", "", "", "", "", "", "", ""],
    ["", "", "", "", "", "", "", ""],
    ["", "", "", "", "", "", "", ""],
    ["wp", "wp", "wp", "wp", "wp", "wp", "wp", "wp"],
    ["wr", "wn", "wb", "wq", "wk", "wb", "wn", "wr"]]

  /** The fields both resets write: no last move (`{}`), no en-passant
      target, white to move, all castling rights, no moves. */
  function Reset(m: Position, g: Grid): Position
  {
    m.(grid := g, lastMove := Some(MoveRecord(None, None)), enPassant := "", whiteToMove := true,
       castling := Castling(true, true, true, true), moves := 0)
  }

  /** `positionClear`: empty the grid, reset flags and counter, repaint;
      the interaction flag, mode and piece box are left as they were. */
  function PositionClear(b: Board): (r: Step)
    requires Shaped(b)
    ensures Shaped(r.board)
    ensures forall c | OnBoard(c) :: At(r.board.model.grid, c) == ""
    ensures r.board.model.lastMove == Some(MoveRecord(None, None))
    ensures r.board.model.whiteToMove && r.board.model.moves == 0 && r.board.model.enPassant == ""
    ensures r.board.model.castling == Castling(true, true, true, true)
    ensures r.board.model.active == b.model.active
    ensures r.board.model.mode == b.model.mode && r.board.model.pieceBox == b.model.pieceBox
    ensures r.board.view == b.view && r.board.subscribers == b.subscribers
    ensures r.trace == [Render(true)]
  {
    Step(b.(model := Reset(b.model, EmptyGrid)), [Render(true)])
  }

  /** `positionStart`: the initial layout, flags and counter reset, the
      board opened for interaction, repainted. */
  function PositionStart(b: Board): (r: Step)
    requires Shaped(b)
    ensures Shaped(r.board)
    ensures r.board.model.grid == StartGrid
    ensures r.board.model.lastMove == Some(MoveRecord(None, None))
    ensures r.board.model.whiteToMove && r.board.model.moves == 0 && r.board.model.enPassant == ""
    ensures r.board.model.castling == Castling(true, true, true, true)
    ensures r.board.model.active
    ensures r.board.model.mode == b.model.mode && r.board.model.pieceBox == b.model.pieceBox
    ensures r.board.view == b.view && r.board.subscribers == b.subscribers
    ensures r.trace == [Render(true)]
  {
    Step(b.(model := Reset(b.model, StartGrid).(active := true)), [Render(true)])
  }

  /** The start layout by rows: black pieces on rows 0 and 1, white pieces on
      rows 6 and 7, pawns on rows 1 and 6, nothing in between. */
  lemma StartGridLayout(c: Cell)
    requires OnBoard(c)
    ensures c.row <= 1 ==> ColorLetter(At(StartGrid, c)) == "b"
    ensures 6 <= c.row ==> ColorLetter(At(StartGrid, c)) == "w"
    ensures 2 <= c.row <= 5 <==> At(StartGrid, c) == ""
    ensures c.row == 1 || c.row == 6 <==> IsPawn(At(StartGrid, c))
  {
    var row := StartGrid[c.row];
    assert row[c.col] == At(StartGrid, c);
    if c.row == 0 {
      assert row == ["br", "bn", "bb", "bq", "bk", "bb", "bn", "br"];
    } else if c.row == 7 {
      assert row == ["wr", "wn", "wb", "wq", "wk", "wb", "wn", "wr"];
    }
  }

  /** After `positionStart` in play mode a press starts a drag exactly on
      the white pieces, rows 6 and 7 of the grid, in either orientation. */
  lemma StartPositionLiftsWhite(b: Board, left: int, top: int)
    requires Valid(b) && b.model.mode == Play
    requires Pointable(b, left, top)
    ensures var s := PositionStart(b).board;
      Pointable(s, left, top)
      && (StartsDrag(s, left, top) <==> 6 <= PointedCell(s, left, top).row)
  {
    var s := PositionStart(b).board;
    StartGridLayout(PointedCell(s, left, top));
  }

  /** After `positionClear` no press on the board starts a drag. */
  lemma ClearedBoardLiftsNothing(b: Board, left: int, top: int)
    requires Valid(b) && Pointable(b, left, top)
    requires top < 8 * b.view.squareSize
    ensures var s := PositionClear(b).board;
      Pointable(s, left, top) && !StartsDrag(s, left, top)
  {
    var s := PositionClear(b).board;
    CellIndexInRange(top, b.view.squareSize, 8);
    assert OnBoard(PointedCell(s, left, top));
  }

  /** The public `resize`: lay the canvas out (as intended, see
      `Layout.Resize`) and repaint. */
  function Resize(b: Board, height: nat, width: nat, containerHeight: nat, containerWidth: nat): (r: Step)
    requires Shaped(b)
    ensures r.board.model == b.model && r.board.subscribers == b.subscribers
    ensures r.board.view == b.view.(squareSize := r.board.view.squareSize)
    ensures Shaped(r.board) && (Valid(r.board) <==> r.board.view.squareSize > 0)
    ensures var c := Layout.Canvas(r.board.view.squareSize, 8 * r.board.view.squareSize,
                                   Rows(b.model.mode) * r.board.view.squareSize);
      Layout.FitsTightly(c, b.model.mode, Layout.UsedHeight(height, width, containerHeight),
                         Layout.UsedWidth(height, width, containerWidth))
    ensures r.trace == [Render(true)]
  {
    var c := Layout.Resize(height, width, containerHeight, containerWidth, b.model.mode);
    Step(b.(view := b.view.(squareSize := c.squareSize)), [Render(true)])
  }

  /** A play-mode drag from one cell to another commits exactly the rules
      engine's verdict on that move: rejected, the position is unchanged and
      nothing is published; accepted, the grid and side to move are the
      engine's, one more move is counted, and the one publication comes
      before the commit while subscribers still see the old position. */
  lemma PlayDragCommitsEngineMove(b: Board, e: Engine, l1: int, t1: int, l2: int, t2: int)
    requires Valid(b) && b.model.mode == Play
    requires Pointable(b, l1, t1) && Releasable(b, l2, t2)
    requires StartsDrag(b, l1, t1)
    ensures var down := PointerDown(b, l1, t1).board;
      var up := PointerUp(down, l2, t2, e);
      var sq1 := SquareName(PointedCell(b, l1, t1));
      var sq2 := CellName(ReleaseCell(b, l2, t2));
      var verdict := Attempt(b.model, e, sq1, sq2);
      && !up.board.view.dragging
      && (verdict.None? ==> up.board.model == b.model && Publications(up.trace) == 0)
      && (verdict.Some? ==>
            && up.board.model.grid == verdict.value.grid
            && up.board.model.whiteToMove == verdict.value.whiteToMove
            && up.board.model.moves == b.model.moves + 1
            && Publications(up.trace) == 1
            && PublishedBeforeCommit(up.trace)
            && up.trace[0].seen == b.model)
  {
    var down := PointerDown(b, l1, t1).board;
    assert ReleaseCell(down, l2, t2) == ReleaseCell(b, l2, t2);
    var from := PointedCell(b, l1, t1);
    var to := ReleaseCell(b, l2, t2);
    var o := Move(b.model, b.subscribers, e, CellName(from), CellName(to));
    var up := PointerUp(down, l2, t2, e);
    assert up.trace == o.trace + [Render(true)];
    PublicationsAppendRender(o.trace);
    if Attempt(b.model, e, CellName(from), CellName(to)).Some? {
      assert o.trace == [o.trace[0], Committed, Render(true)];
    }
  }

  /** Appending a repaint adds no publication and no commit. */
  lemma {:induction false} PublicationsAppendRender(t: seq<Event>)
    ensures Publications(t + [Render(true)]) == Publications(t)
    ensures PublishedBeforeCommit(t) ==> PublishedBeforeCommit(t + [Render(true)])
  {
    if |t| > 0 {
      assert (t + [Render(true)])[1..] == t[1..] + [Render(true)];
      PublicationsAppendRender(t[1..]);
    }
  }

  /** Setup mode never consults the rules engine: a release gives the same
      board and events whatever the engine, and publishes nothing. */
  lemma SetupIgnoresEngine(b: Board, left: int, top: int, e1: Engine, e2: Engine)
    requires Valid(b) && Releasable(b, left, top) && b.model.mode == Setup
    ensures PointerUp(b, left, top, e1) == PointerUp(b, left, top, e2)
    ensures Publications(PointerUp(b, left, top, e1).trace) == 0
  {
  }

  /** Dragging a piece from the piece box onto a square and then from that
      square back into the piece box leaves the square empty and every other
      square as it was. */
  lemma PieceBoxRoundTrip(g: Grid, c: Cell, piece: string, other: string)
    requires IsGrid(g, 8) && OnBoard(c)
    ensures var placed := SetupDrop(g, PieceBox, SquareName(c), piece);
      var removed := SetupDrop(placed, SquareName(c), PieceBox, other);
      && At(placed, c) == piece
      && At(removed, c) == ""
      && SameExcept(g, removed, {c})
  {
    NameRoundTrip(c);
  }

  /** In setup mode, in either orientation, a press below the board on a
      non-empty piece-box cell lifts the piece drawn at that screen cell. */
  lemma PieceBoxPressLiftsDrawnPiece(b: Board, left: int, top: int)
    requires Valid(b) && Pointable(b, left, top) && b.model.mode == Setup && b.model.active
    requires 8 * b.view.squareSize <= top
    ensures var i := TruncDiv(top, b.view.squareSize); var j := TruncDiv(left, b.view.squareSize);
      && 8 <= i < 10 && 0 <= j < 8
      && (b.model.pieceBox[i - 8][j] != "" <==> StartsDrag(b, left, top))
      && (StartsDrag(b, left, top) ==>
            PointerDown(b, left, top).board.view.dragPiece == b.model.pieceBox[i - 8][j]
            && CellName(PointerDown(b, left, top).board.view.dragFrom) == PieceBox)
  {
    ScreenToSlotInCanvas(b.view.whiteDown, left, top, b.view.squareSize, 10);
  }

  /** Every overlay a move step draws is erased, as far as it lies on the
      board, by the restore that opens the next move step. */
  lemma OverlayErasedByNextMove(b: Board, l1: int, t1: int, l2: int, t2: int)
    requires Valid(b) && b.view.dragging
    ensures var s1 := PointerMove(b, l1, t1);
      var s2 := PointerMove(s1.board, l2, t2);
      forall k | 0 <= k < |s1.trace| && s1.trace[k].Hover? ::
        |s2.trace| > 0 && s2.trace[0].Restore? && Layout.Covers(s2.trace[0].area, s1.trace[k].area, b.view.squareSize)
    ensures var s1 := PointerMove(b, l1, t1);
      var s2 := PointerMove(s1.board, l2, t2);
      forall k | 0 <= k < |s1.trace| && s1.trace[k].DrawPiece? ::
        |s2.trace| > 0 && s2.trace[0].Restore? && Layout.Covers(s2.trace[0].area, s1.trace[k].area, b.view.squareSize)
  {
    var s := b.view.squareSize;
    var s1 := PointerMove(b, l1, t1);
    var s2 := PointerMove(s1.board, l2, t2);
    if OverBoard(s, l1, t1) {
      MoveDrawsFrame(b, l1, t1);
      FrameInsideNextRestore(b, l1, t1);
      var area := Layout.RestoreClip(l1, t1, s).value;
      assert s2.trace[0] == Restore(area);
      forall k | 0 <= k < |s1.trace| && (s1.trace[k].Hover? || s1.trace[k].DrawPiece?)
        ensures Layout.Covers(area, s1.trace[k].area, s)
      {
        assert s1.trace[k] in s1.trace;
      }
    } else {
      forall k | 0 <= k < |s1.trace|
        ensures s1.trace[k].Restore?
      {
        assert s1.trace[k] in s1.trace;
      }
    }
  }

  /** Apart from the restore, a move step draws only what its drag frame draws. */
  lemma MoveDrawsFrame(b: Board, left: int, top: int)
    requires Valid(b) && b.view.dragging && OverBoard(b.view.squareSize, left, top)
    ensures forall e | e in PointerMove(b, left, top).trace && !e.Restore? :: e in DragFrame(b, left, top)
  {
    var clip := Layout.RestoreClip(b.view.left, b.view.top, b.view.squareSize);
    var t := PointerMove(b, left, top).trace;
    if clip.Some? {
      assert t == [t[0]] + t[1..];
    }
  }

  /** Everything a drag frame draws lies inside the block the next move step restores. */
  lemma FrameInsideNextRestore(b: Board, left: int, top: int)
    requires Valid(b) && OverBoard(b.view.squareSize, left, top)
    ensures Layout.RestoreClip(left, top, b.view.squareSize).Some?
    ensures forall e | e in DragFrame(b, left, top) && (e.Hover? || e.DrawPiece?) ::
      Layout.Covers(Layout.RestoreClip(left, top, b.view.squareSize).value, e.area, b.view.squareSize)
  {
    var f := DragFrame(b, left, top);
    Layout.RestoreCoversOverlay(left, top, b.view.squareSize);
    assert f == f[..|f| - 1] + [f[|f| - 1]];
  }
}

=== FILE: eventbus.dfy ===
/** The board's subscriber registry: per-channel ordered lists of callbacks,
    synchronous publication in list order, and removal by identity. */
module EventBus {
  import opened Wrappers

  /** A subscriber callback, compared by identity as JavaScript's `===` does. */
  datatype Callback = Callback(id: nat)

  /** Channel name to the callbacks subscribed to it, in subscription order. */
  type Registry = map<string, seq<Callback>>

  /** The channel used when a caller names none. */
  const Any: string := "any"

  /** The registry of a new board: an empty list for the default channel only. */
  const Initial: Registry := map[Any := []]

  /** `type || 'any'`: an omitted or empty channel name means the default channel. */
  function Channel(t: Option<string>): (ch: string)
    ensures ch != ""
    ensures t.Some? && t.value != "" ==> ch == t.value
    ensures t.None? || t.value == "" ==> ch == Any
  {
    if t.None? || t.value == "" then Any else t.value
  }

  /** The callbacks a channel delivers to; a channel without a list has none. */
  function Listeners(reg: Registry, ch: string): seq<Callback>
  {
    if ch in reg then reg[ch] else []
  }

  /** `subscribe(type, fn)`: append `fn` to its channel's list, creating the
      list if absent; every other channel is left as it was. */
  function Subscribe(reg: Registry, t: Option<string>, fn: Callback): (r: Registry)
    ensures r.Keys == reg.Keys + {Channel(t)}
    ensures Listeners(r, Channel(t)) == Listeners(reg, Channel(t)) + [fn]
    ensures forall ch | ch in reg && ch != Channel(t) :: r[ch] == reg[ch]
  {
    var ch := Channel(t);
    reg[ch := Listeners(reg, ch) + [fn]]
  }

  /** A new board's registry delivers to nobody on any channel, and a first
      subscription leaves its channel holding exactly that callback. */
  lemma FreshRegistry(ch: string, t: Option<string>, fn: Callback)
    ensures Listeners(Initial, ch) == []
    ensures Listeners(Subscribe(Initial, t, fn), Channel(t)) == [fn]
    ensures Subscribe(Initial, t, fn).Keys == {Any, Channel(t)}
  {
  }

  /** One invocation of a subscriber with the published payload. */
  datatype Delivery<P> = Delivery(callee: Callback, payload: P)

  /** `publish(publication, type)`: the loop of `visitSubscribers` over the
      channel's list, invoking each callback once with the payload, in list
      order; a channel with no list gets no invocation. */
  method Publish<P>(reg: Registry, t: Option<string>, payload: P) returns (calls: seq<Delivery<P>>)
    ensures |calls| == |Listeners(reg, Channel(t))|
    ensures forall k | 0 <= k < |calls| :: calls[k] == Delivery(Listeners(reg, Channel(t))[k], payload)
  {
    var ch := Channel(t);
    var max := 0;
    if ch in reg {
      max := |reg[ch]|;
    }
    calls := [];
    var i := 0;
    while i < max
      invariant 0 <= i <= max
      invariant max == |Listeners(reg, ch)|
      invariant |calls| == i
      invariant forall k | 0 <= k < i :: calls[k] == Delivery(reg[ch][k], payload)
    {
      calls := calls + [Delivery(reg[ch][i], payload)];
      i := i + 1;
    }
  }

  /** The list left by the unsubscribe loop, which splices inside a forward
      walk: each examined copy of `fn` is removed, and the entry that slides
      into its place is stepped over without being examined. */
  function SpliceOut(l: seq<Callback>, fn: Callback): seq<Callback>
  {
    if |l| == 0 then []
    else if l[0] != fn then [l[0]] + SpliceOut(l[1..], fn)
    else if |l| == 1 then []
    else [l[1]] + SpliceOut(l[2..], fn)
  }

  /** Reference definition: the list with every copy of `fn` removed and the
      other callbacks kept in order. */
  function Without(l: seq<Callback>, fn: Callback): (r: seq<Callback>)
    ensures fn !in r
  {
    if |l| == 0 then []
    else (if l[0] == fn then [] else [l[0]]) + Without(l[1..], fn)
  }

  /** Two copies of `fn` sit next to each other in `l`. */
  predicate AdjacentCopies(l: seq<Callback>, fn: Callback)
  {
    exists k | 0 <= k < |l| - 1 :: l[k] == fn && l[k + 1] == fn
  }

  lemma AdjacentCopiesTail(l: seq<Callback>, fn: Callback, d: nat)
    requires d <= |l|
    requires forall k | 0 <= k < d :: l[k] != fn
    requires d > 0
    ensures AdjacentCopies(l, fn) <==> AdjacentCopies(l[d..], fn)
  {
    if AdjacentCopies(l, fn) {
      var k :| 0 <= k < |l| - 1 && l[k] == fn && l[k + 1] == fn;
      assert l[d..][k - d] == l[k];
    }
    if AdjacentCopies(l[d..], fn) {
      var k :| 0 <= k < |l[d..]| - 1 && l[d..][k] == fn && l[d..][k + 1] == fn;
      assert l[k + d] == fn && l[k + d + 1] == fn;
    }
  }

  /** The splice walk never disturbs the other callbacks: they all remain, in order. */
  lemma {:induction false} SpliceOutKeepsOthers(l: seq<Callback>, fn: Callback)
    ensures Without(SpliceOut(l, fn), fn) == Without(l, fn)
  {
    if |l| == 0 {
    } else if l[0] != fn {
      SpliceOutKeepsOthers(l[1..], fn);
      assert ([l[0]] + SpliceOut(l[1..], fn))[1..] == SpliceOut(l[1..], fn);
    } else if |l| == 1 {
    } else {
      SpliceOutKeepsOthers(l[2..], fn);
      assert ([l[1]] + SpliceOut(l[2..], fn))[1..] == SpliceOut(l[2..], fn);
      assert l[1..][1..] == l[2..];
    }
  }

  /** The splice walk removes every copy of `fn` exactly when no two copies
      are adjacent: the copy right after a removed one is never examined. */
  lemma {:induction false} SpliceOutRemovesAllIff(l: seq<Callback>, fn: Callback)
    ensures fn !in SpliceOut(l, fn) <==> !AdjacentCopies(l, fn)
  {
    if |l| == 0 {
    } else if l[0] != fn {
      SpliceOutRemovesAllIff(l[1..], fn);
      AdjacentCopiesTail(l, fn, 1);
    } else if |l| == 1 {
    } else if l[1] == fn {
      assert SpliceOut(l, fn)[0] == fn;
      assert l[0] == fn && l[1] == fn;
    } else {
      SpliceOutRemovesAllIff(l[2..], fn);
      assert !(l[0] == fn && l[1] == fn);
      if AdjacentCopies(l, fn) {
        var k :| 0 <= k < |l| - 1 && l[k] == fn && l[k + 1] == fn;
        assert k >= 2;
        assert l[2..][k - 2] == fn && l[2..][k - 1] == fn;
      }
      if AdjacentCopies(l[2..], fn) {
        var k :| 0 <= k < |l[2..]| - 1 && l[2..][k] == fn && l[2..][k + 1] == fn;
        assert l[k + 2] == fn && l[k + 3] == fn;
      }
    }
  }

  /** A callback with no copy of itself after it is dropped from the list,
      other callbacks untouched. */
  lemma {:induction false} WithoutOfAbsent(l: seq<Callback>, fn: Callback)
    requires fn !in l
    ensures Without(l, fn) == l
  {
    if |l| > 0 {
      WithoutOfAbsent(l[1..], fn);
    }
  }

  /** The widget's removal agrees with the reference "remove every copy"
      exactly when no two copies of the callback are adjacent. */
  lemma SpliceOutExactIff(l: seq<Callback>, fn: Callback)
    ensures SpliceOut(l, fn) == Without(l, fn) <==> !AdjacentCopies(l, fn)
  {
    SpliceOutKeepsOthers(l, fn);
    SpliceOutRemovesAllIff(l, fn);
    if !AdjacentCopies(l, fn) {
      WithoutOfAbsent(SpliceOut(l, fn), fn);
    }
  }

  /** Two adjacent subscriptions of one callback survive one unsubscribe as one. */
  lemma SpliceOutLeavesSecondCopy(f: Callback, g: Callback)
    requires f != g
    ensures SpliceOut([f, f], f) == [f]
    ensures SpliceOut([g, f, f, g], f) == [g, f, g]
  {
    assert [f, f][2..] == [];
    assert [g, f, f, g][1..] == [f, f, g];
    assert [f, f, g][2..] == [g];
    assert [g][1..] == [];
    assert SpliceOut([g], f) == [g];
    assert SpliceOut([f, f, g], f) == [f, g];
  }

  /** One step of the splice walk at position `k` of the original list. */
  lemma SpliceOutStep(l: seq<Callback>, k: nat, fn: Callback)
    requires k < |l|
    ensures l[k] != fn ==> SpliceOut(l[k..], fn) == [l[k]] + SpliceOut(l[k + 1..], fn)
    ensures l[k] == fn && k + 1 < |l| ==> SpliceOut(l[k..], fn) == [l[k + 1]] + SpliceOut(l[k + 2..], fn)
    ensures l[k] == fn && k + 1 == |l| ==> SpliceOut(l[k..], fn) == []
  {
    assert l[k..][1..] == l[k + 1..];
    if k + 1 < |l| {
      assert l[k..][2..] == l[k + 2..];
    }
  }

  /** The walk's bookkeeping across one examined entry `orig[k]`: the walked
      part `done` grows by the entry kept at that step, and the list in hand
      loses the entry when it matches. */
  lemma WalkStep(orig: seq<Callback>, fn: Callback, done: seq<Callback>, k: nat)
    returns (done': seq<Callback>, k': nat)
    requires k < |orig|
    requires SpliceOut(orig, fn) == done + SpliceOut(orig[k..], fn)
    ensures k' <= |orig|
    ensures SpliceOut(orig, fn) == done' + SpliceOut(orig[k'..], fn)
    ensures orig[k] != fn ==> done' + orig[k'..] == done + orig[k..] && |done'| == |done| + 1
    ensures orig[k] == fn ==> done' + orig[k'..] == done + orig[k + 1..]
    ensures orig[k] == fn ==> |done'| == |done| + 1 || (done' == done && k' == |orig|)
    ensures |done| <= k ==> |done'| <= k'
  {
    SpliceOutStep(orig, k, fn);
    assert orig[k..] == [orig[k]] + orig[k + 1..];
    if orig[k] != fn {
      done', k' := done + [orig[k]], k + 1;
    } else if k + 1 < |orig| {
      assert orig[k + 1..] == [orig[k + 1]] + orig[k + 2..];
      done', k' := done + [orig[k + 1]], k + 2;
    } else {
      assert orig[k + 1..] == [];
      done', k' := done, k + 1;
    }
  }

  /** `unsubscribe(fn, type)`: the channel's list after the splice walk; every
      other channel, and a channel with no list, is left as it was. */
  function Unsubscribe(reg: Registry, fn: Callback, t: Option<string>): (r: Registry)
    ensures r.Keys == reg.Keys
    ensures forall ch | ch in reg && ch != Channel(t) :: r[ch] == reg[ch]
    ensures Without(Listeners(r, Channel(t)), fn) == Without(Listeners(reg, Channel(t)), fn)
    ensures fn !in Listeners(r, Channel(t)) <==> !AdjacentCopies(Listeners(reg, Channel(t)), fn)
  {
    var ch := Channel(t);
    SpliceOutKeepsOthers(Listeners(reg, ch), fn);
    SpliceOutRemovesAllIff(Listeners(reg, ch), fn);
    if ch in reg then reg[ch := SpliceOut(reg[ch], fn)] else reg
  }

  /** The splice walk drops a single trailing copy of `fn` and nothing else. */
  lemma {:induction false} SpliceOutTrailing(l: seq<Callback>, fn: Callback)
    requires fn !in l
    ensures SpliceOut(l + [fn], fn) == l
  {
    if |l| == 0 {
      assert l + [fn] == [fn];
    } else {
      assert (l + [fn])[1..] == l[1..] + [fn];
      SpliceOutTrailing(l[1..], fn);
      assert l == [l[0]] + l[1..];
    }
  }

  /** Subscribing a callback that a channel does not hold yet and then
      unsubscribing it from that channel gives the registry back. */
  lemma SubscribeThenUnsubscribe(reg: Registry, t: Option<string>, fn: Callback)
    requires Channel(t) in reg && fn !in reg[Channel(t)]
    ensures Unsubscribe(Subscribe(reg, t, fn), fn, t) == reg
  {
    SpliceOutTrailing(reg[Channel(t)], fn);
  }

  /** The loop of `visitSubscribers` in unsubscribe mode: a forward walk up
      to the list's original length that splices out each match in place. */
  method UnsubscribeLoop(reg: Registry, fn: Callback, t: Option<string>) returns (r: Registry)
    ensures r == Unsubscribe(reg, fn, t)
  {
    var ch := Channel(t);
    if ch !in reg {
      return reg;
    }
    var orig := reg[ch];
    var subs := orig;
    var max := |subs|;
    var i := 0;
    // `done` is the walked part of the list, `orig[k..]` the part still ahead.
    ghost var done: seq<Callback> := [];
    ghost var k := 0;
    while i < max
      invariant 0 <= i && 0 <= k <= |orig| == max && |done| <= k
      invariant subs == done + orig[k..]
      invariant SpliceOut(orig, fn) == done + SpliceOut(orig[k..], fn)
      invariant |done| == i || (|done| < i && k == |orig|)
    {
      if i < |subs| {
        assert subs[i] == orig[k];
        if subs[i] == fn {
          subs := subs[..i] + subs[i + 1..];
        }
        done, k := WalkStep(orig, fn, done, k);
      }
      i := i + 1;
    }
    r := reg[ch := subs];
  }
}

=== FILE: geometry.dfy ===
/** Grid geometry of the chessboard widget: pixel-to-cell arithmetic, the
    orientation flip, square names and the 8×8 grid of square contents.

    A cell is a (row, column) pair of array indices into the position grid:
    row 0 is rank 8, column 0 is file a. Rows 8 and 9 address the two rows of
    the setup-mode piece box drawn under the board. */
module Geometry {
  import opened Wrappers

  /** The board mode: `setup` allows free placement from the piece box,
      every other mode plays moves through the rules engine. */
  datatype Mode = Play | Setup

  /** Rows of the canvas: the 8 board rows, plus the 2 piece-box rows in setup mode. */
  function Rows(mode: Mode): nat
  {
    if mode == Setup then 10 else 8
  }

  datatype Cell = Cell(row: int, col: int)

  predicate OnBoard(c: Cell)
  {
    0 <= c.row < 8 && 0 <= c.col < 8
  }

  /** An axis-aligned pixel rectangle on the canvas. */
  datatype Rect = Rect(x: int, y: int, width: int, height: int)

  /** `parseInt(p / s, 10)` for an integer pixel offset `p`: the quotient
      truncated toward zero (not floored) when `p` is negative. */
  function TruncDiv(p: int, s: int): (q: int)
    requires s > 0
    ensures 0 <= p ==> 0 <= q && q * s <= p < q * s + s
    ensures p < 0 ==> q <= 0 && q * s - s < p <= q * s
  {
    if p >= 0 then p / s else -((-p) / s)
  }

  /** A pixel offset inside `n` squares lands in one of those `n` squares. */
  lemma CellIndexInRange(p: int, s: int, n: int)
    requires s > 0 && 0 <= p < n * s
    ensures 0 <= TruncDiv(p, s) < n
  {
    var q := TruncDiv(p, s);
    assert (n - q) * s == n * s - q * s > 0;
  }

  /** The board index shown at a screen index: the identity with white at
      the bottom, the mirror `7 - k` with black at the bottom. */
  function Orient(whiteDown: bool, k: int): int
  {
    if whiteDown then k else 7 - k
  }

  /** Both orientations keep an index on the board, and orienting twice is the identity. */
  lemma OrientInvolution(whiteDown: bool, k: int)
    ensures Orient(whiteDown, Orient(whiteDown, k)) == k
    ensures 0 <= k < 8 <==> 0 <= Orient(whiteDown, k) < 8
  {
  }

  /** The cell under a pointer at canvas offset (`left`, `top`), as the
      press and release handlers compute it: both screen indices flipped with
      black at the bottom, whatever the row. */
  function ScreenToCell(whiteDown: bool, left: int, top: int, size: int): (c: Cell)
    requires size > 0
    ensures var i := TruncDiv(top, size); var j := TruncDiv(left, size);
      && (whiteDown ==> c.row == i && c.col == j)
      && (!whiteDown ==> c.row + i == 7 && c.col + j == 7)
      && (0 <= i < 8 && 0 <= j < 8 <==> OnBoard(c))
  {
    Cell(Orient(whiteDown, TruncDiv(top, size)), Orient(whiteDown, TruncDiv(left, size)))
  }

  /** An offset at or past the board's 8 squares is on screen row 8 or later. */
  lemma BelowBoardRow(p: int, s: int)
    requires s > 0 && 8 * s <= p
    ensures 8 <= TruncDiv(p, s)
  {
    var q := TruncDiv(p, s);
    assert (q + 1) * s == q * s + s > p >= 8 * s;
  }

  /** With black at the bottom, a press on the first piece-box row (drawn
      unflipped under the board) is mapped to row -1, which is neither a
      board row nor a piece-box row. */
  lemma FlippedPieceBoxPressOffGrid(size: int)
    requires size > 0
    ensures ScreenToCell(false, 0, 8 * size, size) == Cell(-1, 7)
  {
    assert TruncDiv(8 * size, size) == 8 by {
      CellIndexInRange(8 * size, size, 9);
      var q := TruncDiv(8 * size, size);
      assert (q - 7) * size == q * size - 7 * size > 0;
    }
  }

  /** The cell under the pointer as evidently intended: board rows are
      flipped with black at the bottom, piece-box rows (screen row 8 on),
      which are always drawn unflipped, are not. */
  function ScreenToSlot(whiteDown: bool, left: int, top: int, size: int): (c: Cell)
    requires size > 0
    // above the piece box it is the mapping as written
    ensures TruncDiv(top, size) < 8 ==> c == ScreenToCell(whiteDown, left, top, size)
    // from the piece box down it is the cell drawn under the pointer, in either orientation
    ensures 8 * size <= top ==> 8 <= c.row && c.row * size <= top < c.row * size + size
    ensures 8 * size <= top && 0 <= left ==> c.col * size <= left < c.col * size + size
  {
    var i := TruncDiv(top, size);
    assert 8 * size <= top ==> 8 <= i by {
      if 8 * size <= top {
        BelowBoardRow(top, size);
      }
    }
    if i < 8 then ScreenToCell(whiteDown, left, top, size) else Cell(i, TruncDiv(left, size))
  }

  /** A pointer inside a canvas of `rows` rows lands on a cell of that canvas
      in either orientation, and on the piece-box cell drawn under it when it
      is below the board. */
  lemma ScreenToSlotInCanvas(whiteDown: bool, left: int, top: int, size: int, rows: int)
    requires size > 0 && (rows == 8 || rows == 10) && 0 <= left < 8 * size && 0 <= top < rows * size
    ensures var c := ScreenToSlot(whiteDown, left, top, size);
      && 0 <= c.row < rows && 0 <= c.col < 8
      && (top < 8 * size <==> c.row < 8)
      && (8 * size <= top ==> c.row * size <= top < c.row * size + size && c.col * size <= left < c.col * size + size)
  {
    CellIndexInRange(left, size, 8);
    CellIndexInRange(top, size, rows);
    var i := TruncDiv(top, size);
    if top < 8 * size {
      CellIndexInRange(top, size, 8);
    } else {
      BelowBoardRow(top, size);
    }
  }

  /** JavaScript `s.substr(k, 1)`: the character at `k` as a string, "" past the end. */
  function CharAt(s: string, k: nat): (t: string)
    ensures |t| <= 1
    ensures k < |s| <==> t != ""
    ensures k < |s| ==> t[0] == s[k]
  {
    if k < |s| then [s[k]] else ""
  }

  /** Colour letter of a piece code such as "wp" (`piece.substr(0, 1)`). */
  function ColorLetter(piece: string): string
  {
    CharAt(piece, 0)
  }

  /** Kind letter of a piece code such as "wp" (`piece.substr(1, 1)`). */
  function KindLetter(piece: string): string
  {
    CharAt(piece, 1)
  }

  /** Image key of a cell's contents (`piece.substr(0, 2)`). */
  function ImageKey(piece: string): string
  {
    if |piece| <= 2 then piece else piece[..2]
  }

  /** Letter of file `col`: `a` for column 0 through `h` for column 7. */
  function FileLetter(col: int): char
    requires 0 <= col < 8
  {
    (97 + col) as char
  }

  /** Digit of the rank shown by array row `row`: `8 - row`. */
  function RankDigit(row: int): char
    requires 0 <= row < 8
  {
    (48 + 8 - row) as char
  }

  /** The sentinel name of every piece-box cell. */
  const PieceBox: string := "piecebox"

  /** The algebraic name of a board cell: file letter then rank digit. */
  function SquareName(c: Cell): string
    requires OnBoard(c)
  {
    [FileLetter(c.col), RankDigit(c.row)]
  }

  /** The rules engine's `getArrayPosition`: the board cell a square name
      denotes, or `None` for anything that is not a square name. */
  function ArrayPosition(s: string): (c: Option<Cell>)
    ensures c.Some? ==> OnBoard(c.value) && SquareName(c.value) == s
    ensures c.None? ==> forall d | OnBoard(d) :: SquareName(d) != s
  {
    if |s| == 2 && 'a' <= s[0] <= 'h' && '1' <= s[1] <= '8' then
      Some(Cell(8 - (s[1] as int - 48), s[0] as int - 97))
    else
      None
  }

  /** Naming a board cell and looking the name up again gives the cell back. */
  lemma NameRoundTrip(c: Cell)
    requires OnBoard(c)
    ensures ArrayPosition(SquareName(c)) == Some(c)
  {
  }

  /** Distinct board cells have distinct names. */
  lemma SquareNameInjective(c: Cell, d: Cell)
    requires OnBoard(c) && OnBoard(d)
    ensures SquareName(c) == SquareName(d) <==> c == d
  {
    NameRoundTrip(c);
    NameRoundTrip(d);
  }

  /** Reference reading of a string of decimal digits: the number it denotes. */
  function DigitsValue(s: string): int
  {
    if |s| == 0 then 0 else 10 * DigitsValue(s[..|s| - 1]) + (s[|s| - 1] as int - 48)
  }

  /** The decimal digits of `n`, as JavaScript writes a number into a string:
      digits only, no leading zero, reading back as `n`. */
  function Decimal(n: nat): (s: string)
    ensures |s| >= 1
    ensures n < 10 <==> |s| == 1
    ensures forall k | 0 <= k < |s| :: '0' <= s[k] <= '9'
    ensures DigitsValue(s) == n
    ensures s[0] != '0' || n == 0
  {
    if n < 10 then [(48 + n) as char]
    else
      var s := Decimal(n / 10) + [(48 + n % 10) as char];
      assert s[..|s| - 1] == Decimal(n / 10);
      s
  }

  /** The name `myUp` gives a drag end point: `'piecebox'` for any row from
      8 on, whatever the column; otherwise, on an in-range column, the file
      letter followed by the decimal
      `8 - row`, which is the square name on the board and a name of no
      square above it (`'e9'`, `'e10'`, ...). */
  function CellName(c: Cell): (s: string)
    requires 0 <= c.col < 8 || 8 <= c.row
    ensures s == PieceBox <==> 8 <= c.row
    ensures 0 <= c.row < 8 ==> s == SquareName(c) && ArrayPosition(s) == Some(c)
    ensures c.row < 0 ==> ArrayPosition(s).None? && |s| >= 2 && s[0] == FileLetter(c.col)
    ensures c.row < 0 ==> DigitsValue(s[1..]) == 8 - c.row && s[1] != '0'
  {
    if 8 <= c.row then PieceBox
    else
      var s := [FileLetter(c.col)] + Decimal(8 - c.row);
      assert s[0] != PieceBox[0];
      assert s[1..] == Decimal(8 - c.row);
      s
  }

  /** Two rows above the board on file e the name is `e10`. */
  lemma CellNameTwoAbove()
    ensures CellName(Cell(-2, 4)) == "e10"
  {
    assert Decimal(10) == Decimal(1) + ['0'];
  }

  /** Contents of the grid cells, row by row; "" is an empty cell and a piece
      is a colour letter followed by a kind letter, such as "wp". */
  type Grid = seq<seq<string>>

  predicate IsGrid(g: Grid, rows: nat)
  {
    |g| == rows && forall r | 0 <= r < rows :: |g[r]| == 8
  }

  function At(g: Grid, c: Cell): string
    requires IsGrid(g, 8) && OnBoard(c)
  {
    g[c.row][c.col]
  }

  /** The grid with cell `c` holding `v` and every other cell as it was. */
  function Put(g: Grid, c: Cell, v: string): (h: Grid)
    requires IsGrid(g, 8) && OnBoard(c)
    ensures IsGrid(h, 8)
    ensures At(h, c) == v
    ensures forall d | OnBoard(d) && d != c :: At(h, d) == At(g, d)
  {
    g[c.row := g[c.row][c.col := v]]
  }

  /** Every board cell outside `changed` has the same contents in `g` and `h`. */
  ghost predicate SameExcept(g: Grid, h: Grid, changed: set<Cell>)
    requires IsGrid(g, 8) && IsGrid(h, 8)
  {
    forall d | OnBoard(d) && d !in changed :: At(h, d) == At(g, d)
  }
}

=== FILE: layout.dfy ===
/** Integer layout arithmetic of the widget: sizing the canvas to its
    container, the region restored from the snapshot while a piece is
    dragged, and the rank and file labels drawn along the board's edges. */
module Layout {
  import opened Wrappers
  import opened Geometry

  /** Square size and canvas size, in pixels. */
  datatype Canvas = Canvas(squareSize: int, width: int, height: int)

  /** Height actually used by `resize`: the requested one, or the
      container's when either requested value is 0. */
  function UsedHeight(height: nat, width: nat, containerHeight: nat): nat
  {
    if height == 0 || width == 0 then containerHeight else height
  }

  /** Width actually used by `resize`, with the same fallback as the height. */
  function UsedWidth(height: nat, width: nat, containerWidth: nat): nat
  {
    if height == 0 || width == 0 then containerWidth else width
  }

  /** A canvas laid out in whole squares: 8 across, `Rows(mode)` down. */
  predicate Squared(c: Canvas, mode: Mode)
  {
    c.squareSize >= 0 && c.width == 8 * c.squareSize && c.height == Rows(mode) * c.squareSize
  }

  /** `c` fits in `h` × `w`, and one pixel more per square would not. */
  predicate FitsTightly(c: Canvas, mode: Mode, h: int, w: int)
  {
    && c.width <= w && c.height <= h
    && (8 * (c.squareSize + 1) > w || Rows(mode) * (c.squareSize + 1) > h)
  }

  /** `controller.resize` as written: the smaller side divided by the row
      count when the height is the smaller side, by 8 otherwise. In play mode
      the canvas is the largest that fits the container. */
  function ResizeAsWritten(height: nat, width: nat, containerHeight: nat, containerWidth: nat, mode: Mode): (c: Canvas)
    ensures Squared(c, mode)
    ensures mode == Play ==>
      FitsTightly(c, mode, UsedHeight(height, width, containerHeight), UsedWidth(height, width, containerWidth))
  {
    var h := UsedHeight(height, width, containerHeight);
    var w := UsedWidth(height, width, containerWidth);
    var smaller := if h < w then h else w;
    var rows := Rows(mode);
    var size := if h < w then smaller / rows else smaller / 8;
    Canvas(size, size * 8, size * rows)
  }

  /** The as-written sizing lets a setup-mode canvas (board plus piece box)
      overflow a container that is at least as tall as it is wide. */
  lemma ResizeAsWrittenOverflowsInSetup()
    ensures ResizeAsWritten(80, 80, 0, 0, Setup) == Canvas(10, 80, 100)
    ensures ResizeAsWritten(80, 80, 0, 0, Setup).height > 80
  {
  }

  /** Sizing as evidently intended: the largest whole square for which
      8 columns and `Rows(mode)` rows fit the container, in both modes. */
  function Resize(height: nat, width: nat, containerHeight: nat, containerWidth: nat, mode: Mode): (c: Canvas)
    ensures Squared(c, mode)
    ensures FitsTightly(c, mode, UsedHeight(height, width, containerHeight), UsedWidth(height, width, containerWidth))
  {
    var h := UsedHeight(height, width, containerHeight);
    var w := UsedWidth(height, width, containerWidth);
    var rows := Rows(mode);
    var size := if h / rows < w / 8 then h / rows else w / 8;
    Canvas(size, size * 8, size * rows)
  }

  /** The intended sizing differs from the written one only for a setup-mode
      board in a container at least as tall as it is wide. */
  lemma ResizeAgreesOutsideSetupPortrait(height: nat, width: nat, containerHeight: nat, containerWidth: nat, mode: Mode)
    requires mode == Play || UsedHeight(height, width, containerHeight) < UsedWidth(height, width, containerWidth)
    ensures Resize(height, width, containerHeight, containerWidth, mode)
         == ResizeAsWritten(height, width, containerHeight, containerWidth, mode)
  {
    var h := UsedHeight(height, width, containerHeight);
    var w := UsedWidth(height, width, containerWidth);
    if h < w {
      DivMonotone(h, w, Rows(mode), 8);
    } else {
      DivMonotone(w, h, 8, 8);
    }
  }

  /** `a / m <= b / n` whenever `a <= b` and `m >= n`. */
  lemma DivMonotone(a: nat, b: nat, m: nat, n: nat)
    requires a <= b && m >= n > 0
    ensures a / m <= b / n
  {
    var q := a / m;
    assert q * n <= q * m by {
      assert q * m - q * n == q * (m - n) >= 0;
    }
    QuotientBound(q, b, n);
  }

  /** A multiple of `n` no larger than `b` is at most `b / n` times `n`. */
  lemma QuotientBound(q: nat, b: nat, n: nat)
    requires n > 0 && q * n <= b
    ensures q <= b / n
  {
    var r := b / n;
    assert b < r * n + n;
    assert (r + 1 - q) * n == r * n + n - q * n > 0;
  }

  /** `parseInt(p - size / 2)`: the left or top of the dragged piece, drawn
      centred on the pointer. */
  function DragOrigin(p: int, size: int): (x: int)
    requires size > 0
    ensures 2 * p - size - 1 <= 2 * x <= 2 * p - size + 1
  {
    TruncDiv(2 * p - size, 2)
  }

  /** Start of the restore region along one axis for pointer index `k`: one
      square before it, moved up to 0 at the board's edge. */
  function ClipStart(k: int, size: int): int
  {
    if (k - 1) * size < 0 then 0 else (k - 1) * size
  }

  /** Extent of the restore region along one axis: three squares, cut at the
      board's far edge. */
  function ClipExtent(k: int, size: int): int
  {
    var start := ClipStart(k, size);
    if start + 3 * size > 8 * size then 8 * size - start else 3 * size
  }

  /** Along one axis, the part of [`lo`, `lo` + `len`) that lies on the board
      [0, `bound`) lies in [`start`, `start` + `extent`). */
  predicate Covers1(start: int, extent: int, lo: int, len: int, bound: int)
  {
    var a := if lo < 0 then 0 else lo;
    var b := if lo + len > bound then bound else lo + len;
    b <= a || (start <= a && b <= start + extent)
  }

  /** The on-board part of `r` lies inside `clip`. */
  predicate Covers(clip: Rect, r: Rect, size: int)
  {
    Covers1(clip.x, clip.width, r.x, r.width, 8 * size)
    && Covers1(clip.y, clip.height, r.y, r.height, 8 * size)
  }

  /** The square of screen cell (`i`, `j`). */
  function CellRect(i: int, j: int, size: int): Rect
  {
    Rect(j * size, i * size, size, size)
  }

  /** The 3×3 block of the live canvas that `myMove` restores from the
      snapshot around the pointer's previous position, cut to the board; none
      when that position was off the board. */
  function RestoreClip(left: int, top: int, size: int): (r: Option<Rect>)
    requires size > 0
    ensures r.Some? <==> 0 <= TruncDiv(top, size) < 8 && 0 <= TruncDiv(left, size) < 8
    ensures r.Some? ==>
      && 0 <= r.value.x && r.value.x + r.value.width <= 8 * size && r.value.width > 0
      && 0 <= r.value.y && r.value.y + r.value.height <= 8 * size && r.value.height > 0
    ensures r.Some? ==>
      Covers(r.value, Rect((TruncDiv(left, size) - 1) * size, (TruncDiv(top, size) - 1) * size, 3 * size, 3 * size), size)
  {
    var i := TruncDiv(top, size);
    var j := TruncDiv(left, size);
    if 0 <= i < 8 && 0 <= j < 8 then
      ClipAxis(i, size);
      ClipAxis(j, size);
      Some(Rect(ClipStart(j, size), ClipStart(i, size), ClipExtent(j, size), ClipExtent(i, size)))
    else
      None
  }

  /** One axis of the restore region: on the board, and covering the three
      squares around index `k` as far as they are on the board. */
  lemma ClipAxis(k: int, size: int)
    requires 0 <= k < 8 && size > 0
    ensures 0 <= ClipStart(k, size) && 0 < ClipExtent(k, size)
    ensures ClipStart(k, size) + ClipExtent(k, size) <= 8 * size
    ensures Covers1(ClipStart(k, size), ClipExtent(k, size), (k - 1) * size, 3 * size, 8 * size)
  {
    assert (k - 1) * size == k * size - size;
    assert k * size <= 7 * size;
  }

  /** Along one axis, the square under the pointer and the dragged piece
      drawn centred on it both lie, as far as they are on the board, inside
      the region restored around that pointer position. */
  lemma ClipCoversOverlayAxis(p: int, size: int)
    requires size > 0 && 0 <= TruncDiv(p, size) < 8
    ensures var k := TruncDiv(p, size);
      && Covers1(ClipStart(k, size), ClipExtent(k, size), k * size, size, 8 * size)
      && Covers1(ClipStart(k, size), ClipExtent(k, size), DragOrigin(p, size), size, 8 * size)
  {
    var k := TruncDiv(p, size);
    var x := DragOrigin(p, size);
    assert (k - 1) * size == k * size - size;
    assert k * size <= 7 * size;
    if p < 0 {
      assert k == 0;
    }
    assert k * size - size < p < k * size + size;
    assert 1 <= k ==> k * size <= p;
  }

  /** Everything a move step draws over the live canvas at a pointer position
      on the board (hover square, resident piece, dragged piece) is, as far
      as it lies on the board, erased by the restore at the next move step. */
  lemma RestoreCoversOverlay(left: int, top: int, size: int)
    requires size > 0
    requires 0 <= TruncDiv(top, size) < 8 && 0 <= TruncDiv(left, size) < 8
    ensures RestoreClip(left, top, size).Some?
    ensures Covers(RestoreClip(left, top, size).value, CellRect(TruncDiv(top, size), TruncDiv(left, size), size), size)
    ensures Covers(RestoreClip(left, top, size).value, Rect(DragOrigin(left, size), DragOrigin(top, size), size, size), size)
  {
    ClipCoversOverlayAxis(left, size);
    ClipCoversOverlayAxis(top, size);
  }

  /** Rank and file labels drawn on one square; `None` where none is drawn. */
  datatype Labels = Labels(rank: Option<int>, file: Option<char>)

  /** The labels `drawSquare` writes on the square at pixel (`x`, `y`): the
      rank number on the left column, the file letter on the bottom row,
      each read from the orientation of the board. */
  function SquareLabels(x: int, y: int, size: int, show: bool, whiteDown: bool): (l: Labels)
    requires size > 0 && 0 <= x < 8 * size && 0 <= y < 8 * size
    ensures l.rank.Some? <==> show && x < size
    ensures l.file.Some? <==> show && 7 * size <= y
    ensures var c := ScreenToCell(whiteDown, x, y, size);
      && OnBoard(c)
      && (l.rank.Some? ==> 1 <= l.rank.value <= 8 && (48 + l.rank.value) as char == SquareName(c)[1])
      && (l.file.Some? ==> l.file.value == SquareName(c)[0])
  {
    var col := TruncDiv(x, size);
    var row := TruncDiv(y, size);
    EdgeIndex(x, size);
    EdgeIndex(y, size);
    LabelsNameCell(whiteDown, row, col);
    var show_rank := show && col == 0;
    var show_file := show && row == 7;
    Labels(
      if show_rank then Some(if whiteDown then 8 - row else row + 1) else None,
      if show_file then Some(if whiteDown then (col + 97) as char else ((7 - col) + 97) as char) else None)
  }

  /** A pixel offset on the board is in the first square exactly when it is
      below one square size, and in the last exactly when it is at least
      seven square sizes. */
  lemma EdgeIndex(p: int, size: int)
    requires size > 0 && 0 <= p < 8 * size
    ensures 0 <= TruncDiv(p, size) < 8
    ensures TruncDiv(p, size) == 0 <==> p < size
    ensures TruncDiv(p, size) == 7 <==> 7 * size <= p
  {
    CellIndexInRange(p, size, 8);
    var q := TruncDiv(p, size);
    if q >= 1 {
      assert q * size - size == (q - 1) * size >= 0;
    }
    if q <= 6 {
      assert 7 * size - q * size == (7 - q) * size >= size;
    }
  }

  /** The rank number and file letter `drawSquare` computes for screen cell
      (`row`, `col`) are the two characters of the name of the board cell
      shown there. */
  lemma LabelsNameCell(whiteDown: bool, row: int, col: int)
    requires 0 <= row < 8 && 0 <= col < 8
    ensures var c := Cell(Orient(whiteDown, row), Orient(whiteDown, col));
      && OnBoard(c)
      && (48 + (if whiteDown then 8 - row else row + 1)) as char == SquareName(c)[1]
      && (if whiteDown then (col + 97) as char else ((7 - col) + 97) as char) == SquareName(c)[0]
  {
  }
}

=== FILE: position.dfy ===
/** The board's canonical position and its move transaction.

    The rules engine is an uninterpreted parameter: a record of functions
    standing for `CHESS.engine.moveTemp`, `isMate`, `isStalemate` and
    `getFEN`. A move is tried on a scratch copy; a rejected move leaves the
    position untouched and publishes nothing, an accepted one publishes its
    descriptor on `move_before` and only then commits the scratch copy. */
module PositionModel {
  import opened Wrappers
  import opened Geometry
  import opened EventBus

  /** The four castling rights. */
  datatype Castling = Castling(whiteKingside: bool, whiteQueenside: bool, blackKingside: bool, blackQueenside: bool)

  /** The last-move record; `{}`, as the position resets write it, has neither square. */
  datatype MoveRecord = MoveRecord(sq1: Option<string>, sq2: Option<string>)

  /** The widget's `model` object: the 8×8 grid, side to move, en-passant
      target, the interaction flag, castling rights, the committed-move count,
      the last move (`None` while it is absent), the mode and the 2×8 piece box. */
  datatype Position = Position(
    grid: Grid,
    whiteToMove: bool,
    enPassant: string,
    active: bool,
    castling: Castling,
    moves: int,
    lastMove: Option<MoveRecord>,
    mode: Mode,
    pieceBox: Grid)

  /** The scratch position `model.move` hands to the engine. */
  datatype Scratch = Scratch(
    grid: Grid,
    whiteToMove: bool,
    enPassant: string,
    active: bool,
    castling: Castling,
    lastMove: Option<MoveRecord>)

  /** The rules engine. `moveTemp` answers `None` for a rejected move and the
      updated scratch position for an accepted one. */
  datatype Engine = Engine(
    moveTemp: (Scratch, string, string) -> Option<Scratch>,
    isMate: Scratch -> bool,
    isStalemate: Scratch -> bool,
    fen: Position -> string)

  /** An engine that, handed an 8×8 grid, hands back an 8×8 grid. */
  ghost predicate Sound(e: Engine)
  {
    forall s: Scratch, a: string, b: string | IsGrid(s.grid, 8) && e.moveTemp(s, a, b).Some? ::
      IsGrid(e.moveTemp(s, a, b).value.grid, 8)
  }

  /** The outcome descriptor published before a move is committed. */
  datatype Descriptor = Descriptor(
    fen: string,
    playerToMove: string,
    sq1: string,
    sq2: string,
    promote: bool,
    mate: bool,
    stalemate: bool)

  /** What an operation does, in order. `Publish` delivers a descriptor to
      `receivers`, in order, while the canonical position is `seen`;
      `Committed` is the write of the canonical position; `Render` is
      `takeSnapshot` (`refresh` false when the live canvas is not repainted);
      the rest are the drawing of a drag step on the live canvas. */
  datatype Event =
    | Publish(channel: string, descriptor: Descriptor, receivers: seq<Callback>, seen: Position)
    | Committed
    | Render(refresh: bool)
    | Restore(area: Rect)
    | Hover(area: Rect)
    | DrawPiece(piece: string, area: Rect)

  const MoveBefore: string := "move_before"

  /** The colour letter of the side to move. */
  function ActiveColor(whiteToMove: bool): (c: string)
    ensures c == "w" <==> whiteToMove
    ensures c == "b" <==> !whiteToMove
  {
    if whiteToMove then "w" else "b"
  }

  /** The scratch copy: the grid (the engine's clone is a plain copy of the
      values), the flags, and the last move when there is one. */
  function Clone(p: Position): Scratch
  {
    Scratch(p.grid, p.whiteToMove, p.enPassant, p.active, p.castling, p.lastMove)
  }

  /** The engine's verdict on moving `sq1` to `sq2` in the scratch copy of `p`. */
  function Attempt(p: Position, e: Engine, sq1: string, sq2: string): Option<Scratch>
  {
    e.moveTemp(Clone(p), sq1, sq2)
  }

  /** A pawn, by its kind letter. */
  predicate IsPawn(piece: string)
  {
    KindLetter(piece) == "p"
  }

  /** The rank digit of the mover's promotion rank. */
  function LastRank(whiteToMove: bool): string
  {
    if whiteToMove then "8" else "1"
  }

  /** The promotion test of `model.move`: the piece on `sq1` before the move
      is a pawn and `sq2` lies on the last rank of the side to move. */
  predicate Promotes(p: Position, sq1: string, sq2: string)
    requires IsGrid(p.grid, 8) && ArrayPosition(sq1).Some?
  {
    IsPawn(At(p.grid, ArrayPosition(sq1).value)) && CharAt(sq2, 1) == LastRank(p.whiteToMove)
  }

  /** The canonical position after committing `s`: grid and flags from the
      scratch copy, one more move, the last move replaced only if the scratch
      copy has one. */
  function Commit(p: Position, s: Scratch): Position
  {
    p.(grid := s.grid, whiteToMove := s.whiteToMove, enPassant := s.enPassant,
       active := s.active, castling := s.castling, moves := p.moves + 1,
       lastMove := if s.lastMove.Some? then s.lastMove else p.lastMove)
  }

  /** New position and events of a transaction. */
  datatype Outcome = Outcome(position: Position, trace: seq<Event>)

  /** Number of publications in a trace. */
  function Publications(t: seq<Event>): (n: nat)
    ensures n <= |t|
    ensures n == 0 <==> forall k | 0 <= k < |t| :: !t[k].Publish?
  {
    if |t| == 0 then 0 else (if t[0].Publish? then 1 else 0) + Publications(t[1..])
  }

  /** Every publication precedes every commit. */
  predicate PublishedBeforeCommit(t: seq<Event>)
  {
    forall k, m | 0 <= k < |t| && 0 <= m < |t| && t[k].Publish? && t[m].Committed? :: k < m
  }

  /** The descriptor of an accepted move: pre-move FEN and side to move, the
      squares, the promotion test on the pre-move grid, and the engine's
      classification of the position after the move, mate taking precedence. */
  predicate Describes(d: Descriptor, p: Position, e: Engine, sq1: string, sq2: string, after: Scratch)
    requires IsGrid(p.grid, 8) && ArrayPosition(sq1).Some?
  {
    && d.fen == e.fen(p)
    && d.playerToMove == ActiveColor(p.whiteToMove)
    && d.sq1 == sq1 && d.sq2 == sq2
    && (d.promote <==> Promotes(p, sq1, sq2))
    && d.mate == e.isMate(after)
    && (d.stalemate <==> !e.isMate(after) && e.isStalemate(after))
  }

  /** `model.move(sq1, sq2)`, a copy-on-write transaction. On reject the
      position is untouched, nothing is published and the board is redrawn.
      On accept exactly one descriptor is published on `move_before`, while
      subscribers still see the pre-move position; the commit comes after it
      and writes grid and flags from the engine's result, adds one move and
      keeps the last move unless the engine gave a new one. */
  function Move(p: Position, reg: Registry, e: Engine, sq1: string, sq2: string): (o: Outcome)
    requires IsGrid(p.grid, 8) && ArrayPosition(sq1).Some?
    ensures Attempt(p, e, sq1, sq2).None? ==>
      o.position == p && Publications(o.trace) == 0 && Committed !in o.trace && o.trace == [Render(true)]
    ensures Attempt(p, e, sq1, sq2).Some? ==>
      var after := Attempt(p, e, sq1, sq2).value;
      && o.position.grid == after.grid
      && o.position.whiteToMove == after.whiteToMove
      && o.position.enPassant == after.enPassant
      && o.position.active == after.active
      && o.position.castling == after.castling
      && o.position.moves == p.moves + 1
      && o.position.lastMove == (if after.lastMove.Some? then after.lastMove else p.lastMove)
      && o.position.mode == p.mode && o.position.pieceBox == p.pieceBox
      && Publications(o.trace) == 1
      && Committed in o.trace
      && PublishedBeforeCommit(o.trace)
      && o.trace == [o.trace[0], Committed, Render(true)]
      && o.trace[0].Publish?
      && o.trace[0].channel == MoveBefore
      && o.trace[0].receivers == Listeners(reg, MoveBefore)
      && o.trace[0].seen == p
      && Describes(o.trace[0].descriptor, p, e, sq1, sq2, after)
      && !(o.trace[0].descriptor.mate && o.trace[0].descriptor.stalemate)
  {
    var before := Descriptor(e.fen(p), ActiveColor(p.whiteToMove), sq1, sq2, Promotes(p, sq1, sq2), false, false);
    match Attempt(p, e, sq1, sq2)
    case None => Outcome(p, [Render(true)])
    case Some(after) =>
      var mate := e.isMate(after);
      var stalemate := !mate && e.isStalemate(after);
      var d := before.(mate := mate, stalemate := stalemate);
      var t := [Publish(MoveBefore, d, Listeners(reg, MoveBefore), p), Committed, Render(true)];
      assert t[1..][1..][1..] == [];
      Outcome(Commit(p, after), t)
  }

  /** Subscribers of `move_before` can rely on the descriptor's FEN: it is the
      FEN of the position they observe while being notified. */
  lemma SubscribersSeeDescribedPosition(p: Position, reg: Registry, e: Engine, sq1: string, sq2: string)
    requires IsGrid(p.grid, 8) && ArrayPosition(sq1).Some?
    ensures var t := Move(p, reg, e, sq1, sq2).trace;
      forall k | 0 <= k < |t| && t[k].Publish? :: t[k].descriptor.fen == e.fen(t[k].seen) && t[k].seen == p
  {
  }

  /** A sound engine keeps the grid 8×8 across a move. */
  lemma MoveKeepsGrid(p: Position, reg: Registry, e: Engine, sq1: string, sq2: string)
    requires IsGrid(p.grid, 8) && ArrayPosition(sq1).Some? && Sound(e)
    ensures IsGrid(Move(p, reg, e, sq1, sq2).position.grid, 8)
  {
    var s := Clone(p);
    if e.moveTemp(s, sq1, sq2).Some? {
      assert IsGrid(e.moveTemp(s, sq1, sq2).value.grid, 8);
    }
  }
}

=== FILE: wrappers.dfy ===
/** Optional values: `None` stands for a JavaScript value that is `undefined`
    (or otherwise falsy) where the widget tests for presence. */
module Wrappers {

  datatype Option<+T> = None | Some(value: T)
}
